=== FILE: README.md ===
# eDNA platform web client — access rules, result transformations and request records

This project models the core of the eDNA platform's React web client. The
client is a single-page application that reads and writes a REST record
store (users, projects, datasets, analysis jobs, results, models and the
unclassified sequence pool). It holds no backend of its own. The model covers
the small, pure, sequential rules the components and the API client apply:

- **Role-based access.** `checkRole` and `ProtectedRoute` (module `Access`).
  The route table of `App.js`, with path matching and its inverse, path
  rendering (`Routes`). The navbar menu and logout (`Navbar`). The project
  filter and the New Project form of the dashboard (`Dashboard`). The per-project permissions and the
  job cards (`ProjectDetails`).
- **Result-table transformations** (`Results`):
  - the view choice;
  - the case-insensitive search;
  - the top-ten abundance bars;
  - the group-by-sum over phyla;
  - the confidence scatter and badge tiers;
  - the CSV export.
- **Dataset selection and job fan-out** (`DataManagement`):
  - row toggling, the header checkbox, and the selection a deletion leaves;
  - default analysis parameters;
  - one job request per selected dataset;
  - the upload form and its body.
- **Request records built by the API client** (`Api`):
  - creation bodies and their timestamps;
  - the job status patch;
  - login and the active-model lookup;
  - `setActive`, modelled as a sequence of updates of a model store.
- **Review pool and forms:**
  - approve and reject patches, when each action is offered, counts and the
    status CSS class (`UnclassifiedPool`);
  - registration validation (`Register`);
  - the create/edit user form and the role counts (`UserManagement`).

Shared vocabulary:

- `Base`: `Option`, `Result`, and JavaScript's `includes`, `filter`,
  `findIndex`.
- `Text`: lower-casing, substring search, `replace`, `join`/`split`, and
  UTF-16 length.
- `Json` and `Records`: JSON bodies and the stored records.
- `Forms`: the browser's `required` check on a form held in an object, and a
  modal form's state.

A JSON body is a `map<string, Value>`. Object spread `{...a, ...b}` is the map
union `a + b`, in which the keys of `b` win. Each reading of the clock
(`new Date().toISOString()`) is an opaque string parameter.

Form submission starts with the browser's constraint validation: a form with
an empty `required` field, or an email the `type="email"` check rejects, is
never handed to `onSubmit`. The email check is an abstract boolean parameter.
The gate is part of every modelled form with `required` fields: registration,
the user editor, the New Project modal and the upload modal. The last two hold
their fields in an object, and `Forms.Filled` is their `required` test.

## Model

| member | source | states |
|---|---|---|
| `Access.CheckRole` | src/components/Common/ProtectedRoute.js:34-38 | For an array, true exactly when the user's role is one of its elements, so an empty array admits nobody. For a single name, true exactly when the strings are equal. |
| `Access.Guard` | src/components/Common/ProtectedRoute.js:5-31 | While loading, the spinner, whatever the user or requirement. Not loading and no user: a redirect to /login. Otherwise the children exactly when the user meets the requirement. That requirement is stated independently of `checkRole`. No requirement admits every signed-in user; failing one gives Access Denied, never the children. |
| `Routes.SegmentsOf` | src/App.js:23-90 | Every route's path starts with '/', so its first segment is empty. The segments of a well-formed location never contain '/'. |
| `Routes.MatchSegmentsOf` | src/App.js:23-90 | The segments of a well-formed location match that location's pattern and no earlier one; a `:param` takes any non-empty segment. |
| `Routes.ResolvePathOf` | src/App.js:23-90 | The path of every well-formed location (every link and `navigate` target) is matched back to that location. |
| `Routes.PathOfResolve` | src/App.js:23-90 | Inverse round trip: every path the table matches is exactly the path of the location it matched, with well-formed parameters. |
| `Routes.PublicPaths` | src/App.js:23-90 | The literal paths /login, /register, /forgot-password and /dashboard, and / for the root. |
| `Routes.ProjectPaths` | src/App.js:37-55 | /project/:id, /project/:id/data and /results/:jobId, written as the client's template literals. |
| `Routes.AdminPaths` | src/App.js:64-82 | /admin/models, /admin/unclassified and /admin/users. |
| `Routes.VisitPath` | src/App.js:22-91 | Visiting a location's path renders exactly that location's route element. |
| `Routes.PublicPages` | src/App.js:23-25 | /login, /register and /forgot-password each render their own page (login, registration, password reset) with no guard, whatever the authentication state. |
| `Routes.SpinnerWhileLoading` | src/App.js:27-88 | While authentication loads, exactly the guarded routes show the spinner. |
| `Routes.LoginRequired` | src/App.js:27-88 | Without a user, exactly the guarded routes (the dashboard, project, data, results and admin pages) redirect to /login. |
| `Routes.RoleAccess` | src/App.js:27-88 | A signed-in user is denied a page exactly when it is /admin/models or /admin/users and the user is not an Administrator, or /admin/unclassified and the user is neither Administrator nor Researcher. Every other page except the root is shown. |
| `Routes.RenderAccess` | src/App.js:63-88 | The same access rule for the route elements themselves, including the array requirement of /admin/unclassified. |
| `Routes.TechnicianAndResearcherAccess` | src/App.js:72-88 | A Technician is denied the unclassified pool. A Researcher is admitted to it but denied user management. |
| `Routes.RootRedirects` | src/App.js:90 | / redirects to /dashboard whatever the authentication state. |
| `Navbar.MenuLinks` | src/components/Common/Navbar.js:24-45 | Dashboard is always the first link. The Unclassified Pool link is present exactly for an Administrator or Researcher. Models and Users are present exactly for an Administrator. No other targets appear. |
| `Navbar.MenuLinksAdmitted` | src/components/Common/Navbar.js:28-45 | Every link the menu shows a signed-in user leads to a page the route table shows that user, never to Access Denied. |
| `Navbar.HandleLogout` | src/components/Common/Navbar.js:11-14 | After logout there is no user, and the browser is at a path that resolves to the login route. |
| `Navbar.LogoutShowsLogin` | src/components/Common/Navbar.js:11-14 | After logout the login page is shown, and every guarded page redirects to it. |
| `Dashboard.VisibleProjects` | src/components/Dashboard/Dashboard.js:29-32 | The listed projects form an order-preserving subsequence of the fetched ones. A project is listed exactly when the user is an Administrator or a member. Each listed project keeps its multiplicity. |
| `Dashboard.AdministratorSeesAll` | src/components/Dashboard/Dashboard.js:30 | An Administrator's list is the whole fetched list, in order. |
| `Dashboard.CreateProjectBody` | src/components/Dashboard/Dashboard.js:44-48 | The form's fields, with `ownerId` the creator and `members` exactly `[creator]`, overriding any such form field. |
| `Dashboard.CreatedProjectStored` | src/components/Dashboard/Dashboard.js:42-48 | The project `projectAPI.create` stores from that body is owned by its creator, has the creator as its only member, carries both timestamps, and keeps the form's other fields. |
| `Dashboard.HandleCreateProject` | src/components/Dashboard/Dashboard.js:41-165 | The browser submits the form exactly when its `required` name and description are non-empty. A submitted form sends its keys plus `ownerId` (the creator) and `members` (`[creator]`). After a success the modal is closed and the form holds only name, description and status. |
| `Dashboard.CreateResetsForm` | src/components/Dashboard/Dashboard.js:12-165 | A successful creation leaves the dialog exactly as the page first showed it, whatever was typed: name and description blank, status Active. The browser will not submit that blank form. A failed creation keeps the modal and its form, so submitting again sends the same body. |
| `Dashboard.CreatorSeesNewProject` | src/components/Dashboard/Dashboard.js:44-48 | A project stored from that body has the creator as its only member, so it passes the creator's visibility filter whatever their role. |
| `Dashboard.NewProjectLikePoolLink` | src/components/Dashboard/Dashboard.js:85-89 | New Project is offered exactly to the users whose menu shows the Unclassified Pool link, i.e. Administrators and Researchers. A Technician never gets it. |
| `Dashboard.EmptyStateHint` | src/components/Dashboard/Dashboard.js:97-99 | The "assigned" hint is shown exactly to Technicians. |
| `Dashboard.HintMatchesButton` | src/components/Dashboard/Dashboard.js:85-99 | Whoever has the New Project button is told to create a project. For the three roles the converse holds too. A Technician is told to wait and has no button. |
| `Dashboard.MemberLabel` | src/components/Dashboard/Dashboard.js:122-123 | The label is the count's decimal digits, then " member", plus "s" exactly when the count is not 1. |
| `Dashboard.MemberLabelPlural` | src/components/Dashboard/Dashboard.js:122-123 | The label ends in 's' exactly when the count is not 1. |
| `ProjectDetails.CanManageData` | src/components/Projects/ProjectDetails.js:73 | True for every non-Technician, and for a Technician exactly when listed in `members`. |
| `ProjectDetails.VisibleImpliesManage` | src/components/Projects/ProjectDetails.js:73 | Whoever's dashboard lists a project may manage its data. |
| `ProjectDetails.ManageWithoutVisibility` | src/components/Projects/ProjectDetails.js:73 | The converse fails: a Researcher who is not a member may manage data of a project their dashboard does not list. |
| `ProjectDetails.Buttons` | src/components/Projects/ProjectDetails.js:90-123 | Manage Members and Delete appear exactly for the owner (`ownerId` equals the user's id). Manage Data appears exactly when `canManageData` holds. The Data & Analysis tab always appears. Both navigation buttons lead to /project/:id/data. |
| `ProjectDetails.DataPageReachable` | src/components/Projects/ProjectDetails.js:104-123 | Both data buttons lead to a page the route table shows any signed-in user: `canManageData` hides a button but does not guard the page. |
| `ProjectDetails.JobCard` | src/components/Projects/ProjectDetails.js:178-193 | A progress bar appears exactly for status "Processing", with width `progress`. View Results appears exactly for "Completed" and links to /results/<job id>. |
| `ProjectDetails.JobCardLinks` | src/components/Projects/ProjectDetails.js:178-193 | A card never shows both widgets. The results link leads to the results page for every signed-in user. |
| `Api.Login` | src/services/api.js:23-31 | Succeeds exactly when some user has both the email and the password, and returns the first such user. Otherwise fails with "Invalid credentials". |
| `Api.UserCreateBody` | src/services/api.js:33-39 | The submitted fields plus `createdAt`, which overrides any submitted value. |
| `Api.ProjectCreateBody` | src/services/api.js:54-61 | The fields plus `createdAt` and `updatedAt`, each from its own clock reading and each overriding the caller. |
| `Api.ProjectUpdateBody` | src/services/api.js:63-69 | The changed fields plus a fresh `updatedAt` that always wins. |
| `Api.DatasetCreateBody` | src/services/api.js:85-91 | The fields plus `uploadedAt`. |
| `Api.JobCreateBody` | src/services/api.js:112-119 | The caller's fields plus `submittedAt`, and `progress` 0, which overrides any progress the caller sent. |
| `Api.StatusPatch` | src/services/api.js:121-129 | Always `status`. `progress` exactly when the caller passed one, since an omitted (`undefined`) progress is dropped from the JSON. `completedAt` exactly when the status is "Completed". `startedAt` exactly when the status is "Processing" and the progress is missing or falsy. No other field. |
| `Api.StartedAtSurvivesProgress` | src/services/api.js:121-129 | The `startedAt` written by the first "Processing" update survives a later "Processing" update with non-zero progress. |
| `Api.OmittedProgressKept` | src/services/api.js:121-129 | An update without a progress leaves the stored progress as it was. A "Processing" update without one restarts `startedAt`. |
| `Api.ProjectStampsAfterUpdate` | src/services/api.js:54-69 | A created and then updated project keeps its `createdAt`, carries the update's `updatedAt`, takes the update's fields, and keeps its other created fields. |
| `Api.ResultForJob` | src/services/api.js:134-139 | The first stored result whose `jobId` matches, and nothing exactly when none matches. |
| `Api.GetActive` | src/services/api.js:149-154 | The first model flagged active, and nothing exactly when none is. |
| `Api.PatchIsActive` | src/services/api.js:161 | A PATCH sets `isActive` on the first model with the id and changes nothing else. An unknown id fails. |
| `Api.DeactivateAll` | src/services/api.js:157-163 | One patch per fetched model keeps every model's other fields. With distinct ids it leaves every model inactive. |
| `Api.SetActive` | src/services/api.js:156-168 | Only `isActive` changes. It succeeds exactly when the id exists, returning that model active. With distinct ids, afterwards exactly the model with that id is active, so an unknown id leaves none active. |
| `Api.ActivationIsExclusive` | src/services/api.js:156-168 | After activation over distinct ids, exactly one model is active and `getActive` finds it, or none when the id was unknown. |
| `Results.PageView` | src/components/Results/ResultsDashboard.js:66-89 | Loading takes precedence. Then a missing result gives No Results, and otherwise the result is shown. |
| `Results.PageViewForJob` | src/components/Results/ResultsDashboard.js:37-89 | Once loaded, No Results is shown exactly when the store has no result for the job. A shown result belongs to that job. |
| `Results.Search` | src/components/Results/ResultsDashboard.js:91-93 | An order-preserving subsequence of the rows. A row is kept exactly when its lower-cased taxon contains the lower-cased term, with its multiplicity. |
| `Results.EmptySearchKeepsAll` | src/components/Results/ResultsDashboard.js:91-93 | An empty term keeps every row, in order. |
| `Results.SearchIgnoresCase` | src/components/Results/ResultsDashboard.js:91-93 | A term and its lower-cased form select the same rows, in the same order. |
| `Results.AbundanceName` | src/components/Results/ResultsDashboard.js:97 | Species, else genus, else family, where an empty string counts as missing. |
| `Results.Abundance` | src/components/Results/ResultsDashboard.js:96-99 | The first min(10, n) rows, in order, each as its name and read count. |
| `Results.AbundanceIgnoresTail` | src/components/Results/ResultsDashboard.js:96 | Rows after the tenth never change the chart. |
| `Results.AddRow` | src/components/Results/ResultsDashboard.js:102-107 | A phylum already present keeps the names and adds the reads to its slice only. A new phylum is appended with the row's reads. |
| `Results.PhylumDataSpec` | src/components/Results/ResultsDashboard.js:101-109 | One slice per distinct phylum, in order of first appearance. Each slice's value is the read count summed over that phylum's rows. |
| `Results.PhylumDataTotal` | src/components/Results/ResultsDashboard.js:101-109 | The slices add up to the total read count of all rows. |
| `Results.ConfidenceData` | src/components/Results/ResultsDashboard.js:111-116 | One point per row. Row i has index i+1, its confidence and reads, and is named by species, else genus. |
| `Results.ConfidenceIndices` | src/components/Results/ResultsDashboard.js:111-116 | The indices increase strictly and lie in 1..n. |
| `Results.ChartsAgree` | src/components/Results/ResultsDashboard.js:96-116 | The three charts show the same rows. The scatter's points carry in total the reads the phylum slices add up to. Each of the first ten points has its abundance bar's read count, and its name whenever the row names a species or a genus. |
| `Results.ConfidenceTier` | src/components/Results/ResultsDashboard.js:261 | High exactly from 0.8, medium exactly in [0.6, 0.8), low exactly below 0.6. |
| `Results.TierMonotone` | src/components/Results/ResultsDashboard.js:261 | A higher confidence never gets a lower badge. |
| `Results.CsvLines` | src/components/Results/ResultsDashboard.js:50-55 | The header line, then one line per row in order. |
| `Results.HeaderRoundTrip` | src/components/Results/ResultsDashboard.js:51 | The header line has no newline and splits back into its ten column names. |
| `Results.LineRoundTrip` | src/components/Results/ResultsDashboard.js:53 | A row line whose fields avoid ',' and newlines splits back into the row's ten fields. |
| `Results.CsvRoundTrip` | src/components/Results/ResultsDashboard.js:50-55 | When no field holds ',' or a newline, the export splits back into the header and one line per row. Each line splits into that row's fields. |
| `Results.CommaShiftsColumns` | src/components/Results/ResultsDashboard.js:53 | Without quoting, a taxon containing ',' does not read back: the first column holds only its part before the comma. |
| `DataManagement.Toggle` | src/components/Data/DataManagement.js:111-117 | An unselected id is appended at the end. A selected id is removed everywhere, the rest staying in order. No other id's membership or multiplicity changes. |
| `DataManagement.ToggleTwice` | src/components/Data/DataManagement.js:112-116 | Toggling an unselected id twice restores the selection exactly. |
| `DataManagement.ToggleNoDuplicates` | src/components/Data/DataManagement.js:111-117 | Toggling keeps a selection free of duplicates. |
| `DataManagement.HeaderClick` | src/components/Data/DataManagement.js:150-153 | Checking selects every dataset id in table order, so the box reads checked. Unchecking clears the selection. |
| `DataManagement.HeaderCheckedIffAll` | src/components/Data/DataManagement.js:149 | For a duplicate-free selection of the table's distinct ids, the length test holds exactly when every dataset is selected. |
| `DataManagement.HandleDelete` | src/components/Data/DataManagement.js:100-108 | A confirmed, successful deletion reloads the table without the deleted id, in order, and leaves the selection as it was. Otherwise nothing changes. |
| `DataManagement.StaleSelection` | src/components/Data/DataManagement.js:100-108 | With rows a, b, c and a, b selected, deleting a checks the header checkbox although c is not selected. Run Analysis would still submit a job for the deleted a. |
| `DataManagement.HandleDeleteIntended` | src/components/Data/DataManagement.js:100-108 | Corrected deletion: the same reload, and the deleted id also leaves the selection, every other id keeping its membership. |
| `DataManagement.ChangesKeepConsistent` | src/components/Data/DataManagement.js:100-153 | Toggling a row, clicking the header and the corrected deletion each keep the selection duplicate-free and inside a table of distinct ids. |
| `DataManagement.DeleteKeepsHeaderExact` | src/components/Data/DataManagement.js:149 | After a corrected deletion the header checkbox is checked exactly when every row is selected. |
| `DataManagement.LoadParams` | src/components/Data/DataManagement.js:46 | `modelVersion` becomes the active model's version, or '' without one. Every other parameter is kept. |
| `DataManagement.LoadedDefaults` | src/components/Data/DataManagement.js:26-46 | After loading, `minConfidence` is 0.75 and `taxonomicLevel` "species". `modelVersion` is '' when no stored model is active. |
| `DataManagement.JobRequest` | src/components/Data/DataManagement.js:83-89 | The dataset id, the project, the submitter and status "Queued", with the parameters spread last so that they win. |
| `DataManagement.JobRequests` | src/components/Data/DataManagement.js:82-90 | Exactly one request per selected id, in selection order. |
| `DataManagement.FanOutJobs` | src/components/Data/DataManagement.js:82-90 | Each created job stores its dataset, the project, the submitter, "Queued", progress 0 and every parameter. |
| `DataManagement.RunButton` | src/components/Data/DataManagement.js:130-134 | Shown exactly for a non-empty selection, labelled with its size. |
| `DataManagement.RunAnalysis` | src/components/Data/DataManagement.js:91-97 | When every request succeeds, the selection is cleared and the browser returns to the project. When any fails, the state is unchanged. |
| `DataManagement.RunOutcomes` | src/components/Data/DataManagement.js:79-134 | After a fully successful run the Run Analysis button is gone. After a partly failed one the button and selection stay, and submitting again sends the same requests, including those that already succeeded. |
| `DataManagement.UploadBody` | src/components/Data/DataManagement.js:55-61 | The form plus the project, the uploader, "Uploaded" and "25 MB", overriding those form fields. |
| `DataManagement.HandleUpload` | src/components/Data/DataManagement.js:52-338 | The browser submits the upload form exactly when all eight `required` inputs are non-empty. A submitted form sends the upload body. After a success the modal is closed and the form is blank, so it cannot be submitted again as it is. After a failure the dialog is unchanged. |
| `DataManagement.UploadRequiredFilled` | src/components/Data/DataManagement.js:224-338 | The browser's check of the eight `required` inputs is the same as each of sample id, filename, latitude, longitude, depth, collection date, temperature and salinity being non-empty. |
| `DataManagement.UploadResetsForm` | src/components/Data/DataManagement.js:16-75 | A successful upload restores the page's initial blank form, which the browser will not submit. A failed upload keeps the form, so submitting again sends the same body. |
| `DataManagement.UploadedDataset` | src/components/Data/DataManagement.js:55-61 | The stored dataset belongs to the page's project, is "Uploaded", and carries its upload time. |
| `UnclassifiedPool.ApprovePatch` | src/components/Admin/UnclassifiedPool.js:34-39 | Exactly `status` "Approved", `reviewedBy` the reviewer's id, `reviewDate` and `annotations` = [annotation]. |
| `UnclassifiedPool.RejectPatch` | src/components/Admin/UnclassifiedPool.js:51-55 | Exactly `status` "Rejected", `reviewedBy` and `reviewDate`, with no `annotations`. |
| `UnclassifiedPool.ReviewMerges` | src/components/Admin/UnclassifiedPool.js:32-62 | Approving replaces the annotations with the one annotation. Rejecting keeps whatever annotations the entry had. |
| `UnclassifiedPool.ApprovedAnnotationNonEmpty` | src/components/Admin/UnclassifiedPool.js:212-216 | Approve is enabled only for a non-empty annotation, so an approval never stores an empty one. |
| `UnclassifiedPool.ReviewedNotOffered` | src/components/Admin/UnclassifiedPool.js:141-148 | Review is offered only for status "Pending Review", so an approved or rejected entry is not offered again. |
| `UnclassifiedPool.PoolStats` | src/components/Admin/UnclassifiedPool.js:91-106 | The total is the number of entries, and each count is at most the total. |
| `UnclassifiedPool.StatsBounded` | src/components/Admin/UnclassifiedPool.js:93-106 | Pending plus Approved never exceeds the total (exact, disjoint matches). |
| `UnclassifiedPool.StatusClass` | src/components/Admin/UnclassifiedPool.js:136 | Same length as the status. Each character is lower-cased, except that only the first space becomes '-'. |
| `UnclassifiedPool.StatusClassFirstSpace` | src/components/Admin/UnclassifiedPool.js:136 | For a space-free first word, the class is lower(word) + "-" + lower(rest), in which later spaces survive. |
| `UnclassifiedPool.AfterApprove` | src/components/Admin/UnclassifiedPool.js:40-41 | A successful approval closes the dialog and clears the annotation. A failure changes nothing. |
| `UnclassifiedPool.AfterReject` | src/components/Admin/UnclassifiedPool.js:49-57 | Only a confirmed, successful rejection closes the dialog, and the annotation is always kept. |
| `UnclassifiedPool.AnnotationCarryOver` | src/components/Admin/UnclassifiedPool.js:40-57 | An annotation typed before a rejection enables Approve on the next review straight away. After an approval the next review starts with Approve disabled. |
| `Register.InitialFormFacts` | src/components/Auth/Register.js:8-14 | The form starts with every text field empty and the role Technician. |
| `Register.RoleOptionsFacts` | src/components/Auth/Register.js:133-136 | The selector offers Technician and Researcher, never Administrator, and the initial role is among its options. |
| `Register.RegisterBody` | src/components/Auth/Register.js:43-44 | Every field of the form except `confirmPassword`. |
| `Register.HandleSubmit` | src/components/Auth/Register.js:26-124 | The handler runs exactly when the browser lets the form through: name, email, password and confirmation all non-empty and the email accepted. It then reports a mismatch ("Passwords do not match") before checking the length. A short password gives the length message. In both cases nothing is sent. Something is sent exactly for a valid form. Success goes to /login; failure shows "Registration failed. Please try again.". |
| `Register.LengthCheckCountsUnits` | src/components/Auth/Register.js:35-38 | A password of under six characters from the Basic Multilingual Plane is never sent. Three characters outside it count as six UTF-16 units and pass. |
| `Register.RegisteredUserIsNotAdministrator` | src/components/Auth/Register.js:133-136 | A user stored by self-registration with a selector role is never an Administrator, so user management denies them. |
| `UserManagement.RoleOptionsFacts` | src/components/Admin/UserManagement.js:234-236 | The administrator's form offers every self-registration role and, in addition, Administrator. |
| `UserManagement.HandleEdit` | src/components/Admin/UserManagement.js:53-62 | Editing a user opens the dialog with their name, email and role and a blank password. |
| `UserManagement.ResetForm` | src/components/Admin/UserManagement.js:75-79 | Cancel returns to the initial state: no user edited, empty fields, role Technician, dialog closed. |
| `UserManagement.SubmitCaption` | src/components/Admin/UserManagement.js:245 | "Update User" exactly while editing, "Create User" exactly while creating. |
| `UserManagement.EditingRelaxesPassword` | src/components/Admin/UserManagement.js:192-222 | The password is not required when editing, and is required again after Cancel. An edit with a blank password is submitted exactly when name and email pass. A creation with a blank password is blocked. |
| `UserManagement.FormBody` | src/components/Admin/UserManagement.js:40-42 | The request carries exactly the four form fields. |
| `UserManagement.BlankPasswordOverwrites` | src/components/Admin/UserManagement.js:40 | As written, editing a user and submitting with a blank password makes the store hold that user with the password "". The old password then no longer logs in. |
| `UserManagement.UpdateBody` | src/components/Admin/UserManagement.js:216 | Corrected update body: a blank password is left out, and otherwise the whole form is sent. |
| `UserManagement.BlankPasswordKept` | src/components/Admin/UserManagement.js:216 | With the corrected body, a blank password keeps the stored one, a typed one replaces it, and name, email and role are updated. |
| `UserManagement.SubmitRequest` | src/components/Admin/UserManagement.js:36-43 | A request is sent exactly when the browser lets the form through. It updates the user being edited exactly when one is set, and otherwise creates a user. Either way the body is the four form fields, with the password as typed, even when blank. |
| `UserManagement.CaptionNamesRequest` | src/components/Admin/UserManagement.js:36-43 | The submit button's caption names the request sent: "Update User" exactly for an update, "Create User" exactly for a creation. |
| `UserManagement.AfterSubmit` | src/components/Admin/UserManagement.js:44-50 | Success restores the initial state, and a failure changes nothing. |
| `UserManagement.EditRoundTrip` | src/components/Admin/UserManagement.js:36-62 | Editing a user and submitting unchanged sends an update of that user with their own name, email and role, and the password "". |
| `UserManagement.SubmitRequestIntended` | src/components/Admin/UserManagement.js:216 | Corrected submit: the same gate and creation, but an update carries a password exactly when one was typed. |
| `UserManagement.EditRoundTripIntended` | src/components/Admin/UserManagement.js:216 | With the corrected submit, editing a user and submitting unchanged leaves the stored user exactly as it was. |
| `UserManagement.UserStats` | src/components/Admin/UserManagement.js:113-131 | The total is the number of users, and each role count is at most the total. |
| `UserManagement.RoleCountsBounded` | src/components/Admin/UserManagement.js:116-131 | Administrators + Researchers + Technicians never exceed the total (exact, disjoint matches). |
| `Text.Contains` | src/components/Results/ResultsDashboard.js:92 | `includes` is true exactly when the needle occurs at some index of the haystack. |
| `Text.ReplaceFirst` | src/components/Admin/UnclassifiedPool.js:136 | `replace` with a one-character pattern changes only the first occurrence, and nothing else. |
| `Text.Utf16Length` | src/components/Auth/Register.js:35 | `.length` is the number of characters plus the number of characters at or above U+10000, which take two units. So it lies between one and two units per character. |
| `Text.BmpLength` | src/components/Auth/Register.js:35 | A password with no character at or above U+10000 has `.length` equal to its number of characters. |

## Left out

- HTTP and axios: the base URL, headers, the localStorage token interceptor, and server-side query filtering. The store is a sequence of records, and only the records the client builds or selects are modelled.
- The store's PATCH semantics come from the REST store, not from this code. `Api.Merge` assumes a shallow merge in which the patch's fields win.
- Concurrency. The parallel `Promise.all` patches of `modelAPI.setActive` and of the job fan-out are modelled as sequential updates. The window in which no model is active is not modelled, nor are jobs already created when another request of the same fan-out fails.
- React rendering, hooks, modals, `window.confirm` (a boolean parameter), navigation side effects, and the five-second polling of the project page.
- `AuthContext` (the `user`/`loading` state, `logout`) is not part of this model. The guard and the navbar take the user and the loading flag as parameters.
- Charts and the Blob/URL download of the export. Only the CSV string is modelled.
- Number formatting: `toFixed`, percentages, `toLocaleString`, and JavaScript's number-to-string conversion of the confidence in the CSV. The last is an abstract `real -> string` parameter.
- Date formatting. Every timestamp is an opaque string parameter.
- JSON numbers, progress and confidence are `real`. No floating-point rounding is modelled.
- Unicode case folding. Lower-casing covers ASCII letters only.
- `undefined` values: only `analysisAPI.updateStatus`'s `progress` can be omitted by a caller. It is an `Option<Value>` whose `None` drops the key, as JSON serialisation does. No other body is modelled with an `undefined` field.
- Browser constraint validation: `required` is a non-empty test. A `type="number"` or `type="datetime-local"` input whose text the browser cannot parse has the value "", so the non-empty test covers it. The `type="email"` syntax check is an abstract boolean parameter. A `required` `<select>` always holds one of its non-empty options, so it is not modelled.
- React Router's route ranking, case-insensitive matching and trailing-slash handling. Paths are matched exactly against the table; a `:param` matches one non-empty segment.
- The diversity metrics and novel taxa of a result are only displayed, so a result models only its rows.
- `Login.js` and `ModelManagement.js` are not part of this model. They are thin forms over `authAPI.login` and `modelAPI`, which are modelled.
- `ForgotPassword.js` is not part of this model. It is a static confirmation page: its submit handler only shows the confirmation and sends no request.
- What follows a project creation: the dashboard refetches its list, which is `Dashboard.VisibleProjects` again, and logs a failed request to the console.
- Deleting projects and users: each is a single request with no rule of its own. The dataset deletion is modelled for its effect on the selection.
- `DataManagement.HeaderCheckedIffAll`: holds only for a consistent table (a duplicate-free selection of the table's distinct ids). The page as written leaves that state after deleting a selected dataset (see Findings).
- `Api.DeactivateAll`, `Api.SetActive`: exclusivity is promised only for stores whose ids are distinct, as the REST store's primary key guarantees. With a duplicate id, a patch reaches only the first model carrying it.
- `Routes.RoleAccess` and the other route lemmas: stated for well-formed locations, i.e. parameters that are non-empty and free of '/', which are the only values a `:param` segment can take.

## Findings

| source | as written | input that shows it | evidently intended | confidence | as-written member | corrected member |
|---|---|---|---|---|---|---|
| src/components/Admin/UserManagement.js:40 | An update sends the whole form, including `password: ''` when the field is left blank. The store's shallow PATCH then overwrites the stored password with the empty string. | Edit an existing user, change only the name, leave the password blank, and submit. The user's old password no longer logs in. | As the field's label "(leave blank to keep current)" (line 216) promises, a blank password leaves the stored password unchanged. | not executed | `UserManagement.BlankPasswordOverwrites` | `UserManagement.EditRoundTripIntended` |
| src/components/Data/DataManagement.js:100-108 | A successful deletion reloads the table but keeps the selection, deleted id included. The header checkbox compares only lengths (line 149). | Rows a, b, c with a and b selected; delete a. The table is b, c and the selection a, b: the header reads checked though c is unselected, and Run Analysis submits a job for the deleted a. | The deleted id leaves the selection too, so the header checkbox is checked exactly when every row is selected. | not executed | `DataManagement.StaleSelection` | `DataManagement.DeleteKeepsHeaderExact` |

=== FILE: api.dfy ===
/** The REST client (`src/services/api.js`) as pure functions: the bodies it
    builds for POST and PATCH requests, the record it selects from a query
    answer, and the model-activation sequence as successive updates of a
    model store. Each `now` parameter is one reading of the clock
    (`new Date().toISOString()`), kept opaque. */
module Api {
  import opened Base
  import opened Json
  import opened Records

  /** The message `authAPI.login` throws when no user matches. */
  const InvalidCredentials: string := "Invalid credentials"

  /** The store's answer to a PATCH of an unknown id. */
  const NotFound: string := "404 Not Found"

  /** `{...data, [key]: v}`: `data` with one field set, overriding any value
      the caller put there. */
  function Stamp(data: Obj, key: string, v: Value): (r: Obj)
    ensures r.Keys == data.Keys + {key}
    ensures r[key] == v
    ensures forall k :: k in data && k != key ==> r[k] == data[k]
  {
    data + map[key := v]
  }

  // ---------------------------------------------------------------- auth

  /** The user record matches the submitted credentials. */
  predicate HasCredentials(u: User, email: string, password: string)
  {
    u.email == email && u.password == password
  }

  /** `authAPI.login`: the first user whose email and password both match,
      or the "Invalid credentials" failure when none does. */
  function Login(users: seq<User>, email: string, password: string): (r: Result<User, string>)
    ensures r.Ok? <==> exists i :: 0 <= i < |users| && HasCredentials(users[i], email, password)
    ensures r.Ok? ==>
              exists i :: 0 <= i < |users| && users[i] == r.value &&
                HasCredentials(users[i], email, password) &&
                forall j :: 0 <= j < i ==> !HasCredentials(users[j], email, password)
    ensures r.Err? ==> r.error == InvalidCredentials
  {
    match FindFirst(users, u => HasCredentials(u, email, password))
    case Some(i) => Ok(users[i])
    case None => Err(InvalidCredentials)
  }

  /** `authAPI.register` and `userAPI.create`: the submitted fields plus a
      `createdAt` stamp. */
  function UserCreateBody(userData: Obj, now: string): (r: Obj)
    ensures r.Keys == userData.Keys + {"createdAt"}
    ensures r["createdAt"] == Str(now)
    ensures forall k :: k in userData && k != "createdAt" ==> r[k] == userData[k]
  {
    Stamp(userData, "createdAt", Str(now))
  }

  // ------------------------------------------------------------ projects

  /** `projectAPI.create`: the fields plus `createdAt` and `updatedAt`, each
      from its own reading of the clock. */
  function ProjectCreateBody(data: Obj, createdAt: string, updatedAt: string): (r: Obj)
    ensures r.Keys == data.Keys + {"createdAt", "updatedAt"}
    ensures r["createdAt"] == Str(createdAt) && r["updatedAt"] == Str(updatedAt)
    ensures forall k :: k in data && k !in {"createdAt", "updatedAt"} ==> r[k] == data[k]
  {
    Stamp(Stamp(data, "createdAt", Str(createdAt)), "updatedAt", Str(updatedAt))
  }

  /** `projectAPI.update`: the changed fields plus a fresh `updatedAt`, which
      wins over any `updatedAt` the caller sent. */
  function ProjectUpdateBody(data: Obj, now: string): (r: Obj)
    ensures r.Keys == data.Keys + {"updatedAt"}
    ensures r["updatedAt"] == Str(now)
    ensures forall k :: k in data && k != "updatedAt" ==> r[k] == data[k]
  {
    Stamp(data, "updatedAt", Str(now))
  }

  // ------------------------------------------------------------ datasets

  /** `datasetAPI.create`: the fields plus `uploadedAt`. */
  function DatasetCreateBody(data: Obj, now: string): (r: Obj)
    ensures r.Keys == data.Keys + {"uploadedAt"}
    ensures r["uploadedAt"] == Str(now)
    ensures forall k :: k in data && k != "uploadedAt" ==> r[k] == data[k]
  {
    Stamp(data, "uploadedAt", Str(now))
  }

  // -------------------------------------------------------- analysis jobs

  /** `analysisAPI.create`: the caller's fields plus `submittedAt` and a
      `progress` of 0 that overrides whatever progress the caller sent. */
  function JobCreateBody(jobData: Obj, now: string): (r: Obj)
    ensures r.Keys == jobData.Keys + {"submittedAt", "progress"}
    ensures r["progress"] == Num(0.0)
    ensures r["submittedAt"] == Str(now)
    ensures forall k :: k in jobData && k !in {"submittedAt", "progress"} ==> r[k] == jobData[k]
  {
    Stamp(Stamp(jobData, "submittedAt", Str(now)), "progress", Num(0.0))
  }

  /** `analysisAPI.updateStatus`: always `status`; `progress` unless the
      argument was omitted (`undefined`, which serialisation drops);
      `completedAt` only for "Completed"; `startedAt` only for "Processing"
      with a missing or falsy progress. */
  function StatusPatch(status: string, progress: Option<Value>, now: string): (r: Obj)
    ensures "status" in r && r["status"] == Str(status)
    ensures "progress" in r <==> progress.Some?
    ensures progress.Some? ==> r["progress"] == progress.value
    ensures "completedAt" in r <==> status == "Completed"
    ensures "startedAt" in r <==> status == "Processing" && (progress.None? || Falsy(progress.value))
    ensures r.Keys <= {"status", "progress", "completedAt", "startedAt"}
    ensures forall k :: k in r && k in {"completedAt", "startedAt"} ==> r[k] == Str(now)
  {
    var base := map["status" := Str(status)];
    var sent := if progress.Some? then map["progress" := progress.value] else map[];
    var completed := if status == "Completed" then map["completedAt" := Str(now)] else map[];
    var started := if status == "Processing" && (progress.None? || Falsy(progress.value))
                   then map["startedAt" := Str(now)] else map[];
    base + sent + completed + started
  }

  /** How the store applies a PATCH body: a shallow merge in which the
      body's fields win. */
  function Merge(stored: Obj, patch: Obj): (r: Obj)
    ensures r.Keys == stored.Keys + patch.Keys
    ensures forall k :: k in patch ==> r[k] == patch[k]
    ensures forall k :: k in stored && k !in patch ==> r[k] == stored[k]
  {
    stored + patch
  }

  /** A job's `startedAt` is written by the first "Processing" update (with
      progress 0) and survives every later "Processing" update that carries
      a non-zero progress. */
  lemma StartedAtSurvivesProgress(job: Obj, start: string, progress: Value, later: string)
    requires !Falsy(progress)
    ensures var started := Merge(job, StatusPatch("Processing", Some(Num(0.0)), start));
            var advanced := Merge(started, StatusPatch("Processing", Some(progress), later));
            "startedAt" in advanced && advanced["startedAt"] == Str(start) &&
            advanced["status"] == Str("Processing") && advanced["progress"] == progress
  {
  }

  /** An update without a progress leaves the stored progress as it was,
      and, for "Processing", restarts the clock. */
  lemma OmittedProgressKept(job: Obj, status: string, now: string)
    requires "progress" in job
    ensures var updated := Merge(job, StatusPatch(status, None, now));
            updated["progress"] == job["progress"] && updated["status"] == Str(status) &&
            (status == "Processing" ==> updated["startedAt"] == Str(now))
  {
  }

  /** A project created and then updated keeps its creation stamp and
      carries the update's stamp; the fields the update sends replace the
      created ones, and the others stay. */
  lemma ProjectStampsAfterUpdate(data: Obj, created: string, createdAgain: string, change: Obj, now: string)
    requires "createdAt" !in change
    ensures var stored := ProjectCreateBody(data, created, createdAgain);
            var updated := Merge(stored, ProjectUpdateBody(change, now));
            updated["createdAt"] == Str(created) && updated["updatedAt"] == Str(now) &&
            (forall k :: k in change && k != "updatedAt" ==> updated[k] == change[k]) &&
            (forall k :: k in data && k !in change && k !in {"createdAt", "updatedAt"} ==> updated[k] == data[k])
  {
  }

  // -------------------------------------------------------------- results

  /** `resultsAPI.getByJobId`: the first stored result for the job, or
      nothing. */
  function ResultForJob(results: seq<AnalysisResult>, jobId: Id): (r: Option<AnalysisResult>)
    ensures r.None? <==> forall i :: 0 <= i < |results| ==> results[i].jobId != jobId
    ensures r.Some? ==> r.value in results && r.value.jobId == jobId
    ensures r.Some? ==>
              exists i :: 0 <= i < |results| && results[i] == r.value &&
                forall j :: 0 <= j < i ==> results[j].jobId != jobId
  {
    match FindFirst(results, (res: AnalysisResult) => res.jobId == jobId)
    case Some(i) => Some(results[i])
    case None => None
  }

  // --------------------------------------------------------------- models

  predicate IsActiveModel(m: Model)
  {
    m.isActive
  }

  /** `modelAPI.getActive`: the first model flagged active, or nothing. */
  function GetActive(models: seq<Model>): (r: Option<Model>)
    ensures r.None? <==> forall i :: 0 <= i < |models| ==> !models[i].isActive
    ensures r.Some? ==>
              exists i :: 0 <= i < |models| && models[i] == r.value && r.value.isActive &&
                forall j :: 0 <= j < i ==> !models[j].isActive
  {
    match FindFirst(models, IsActiveModel)
    case Some(i) => Some(models[i])
    case None => None
  }

  /** No two models share an id, as in a store that assigns the ids. */
  predicate DistinctIds(models: seq<Model>)
  {
    forall i, j :: 0 <= i < j < |models| ==> models[i].id != models[j].id
  }

  /** `PATCH /models/<id> {isActive}`: the first model with that id gets the
      flag; an unknown id is a failure. */
  function PatchIsActive(models: seq<Model>, id: Id, active: bool): (r: Option<seq<Model>>)
    ensures r.None? <==> forall i :: 0 <= i < |models| ==> models[i].id != id
    ensures r.Some? ==>
              exists k :: 0 <= k < |models| && models[k].id == id &&
                (forall j :: 0 <= j < k ==> models[j].id != id) &&
                r.value == models[k := models[k].(isActive := active)]
  {
    match FindFirst(models, (m: Model) => m.id == id)
    case Some(k) => Some(models[k := models[k].(isActive := active)])
    case None => None
  }

  /** The first half of `modelAPI.setActive`: one `isActive: false` patch
      for each model fetched, run one after another. Each patch reaches
      the first model with the fetched id, so with distinct ids every model
      ends up inactive. */
  method DeactivateAll(models: seq<Model>) returns (store: seq<Model>)
    ensures |store| == |models|
    ensures forall i :: 0 <= i < |models| ==> store[i] == models[i].(isActive := store[i].isActive)
    ensures DistinctIds(models) ==> forall i :: 0 <= i < |store| ==> !store[i].isActive
  {
    var fetched := models;
    store := models;
    var i := 0;
    while i < |fetched|
      invariant 0 <= i <= |fetched|
      invariant |store| == |models|
      invariant forall j :: 0 <= j < |models| ==> store[j] == models[j].(isActive := store[j].isActive)
      invariant DistinctIds(models) ==> forall j :: 0 <= j < i ==> !store[j].isActive
      invariant forall j :: i <= j < |models| ==> store[j] == models[j]
    {
      var patched := PatchIsActive(store, fetched[i].id, false);
      assert store[i].id == fetched[i].id;
      store := patched.value;
      i := i + 1;
    }
  }

  /** `modelAPI.setActive`, with the concurrent deactivation patches run one
      after another: every model is patched inactive, then the chosen one
      is patched active. Only `isActive` ever changes. With an unknown id
      the final patch fails after everything has been deactivated. */
  method SetActive(models: seq<Model>, id: Id) returns (store: seq<Model>, r: Result<Model, string>)
    ensures |store| == |models|
    ensures forall i :: 0 <= i < |models| ==> store[i] == models[i].(isActive := store[i].isActive)
    ensures r.Ok? <==> exists i :: 0 <= i < |models| && models[i].id == id
    ensures r.Ok? ==> r.value.id == id && r.value.isActive && r.value in store
    ensures r.Err? ==> r.error == NotFound
    ensures DistinctIds(models) ==>
              forall i :: 0 <= i < |store| ==> (store[i].isActive <==> store[i].id == id)
  {
    store := DeactivateAll(models);
    // Without distinct ids a later duplicate may have escaped deactivation;
    // the final patch still targets the first model with `id`.
    var last := PatchIsActive(store, id, true);
    match last {
      case Some(s) =>
        var k :| 0 <= k < |store| && store[k].id == id &&
                 (forall j :: 0 <= j < k ==> store[j].id != id) &&
                 s == store[k := store[k].(isActive := true)];
        store := s;
        r := Ok(store[k]);
      case None =>
        r := Err(NotFound);
    }
  }

  /** After an activation over distinct ids, at most one model is active:
      exactly the one with the requested id if it exists (and `getActive`
      then finds it), none otherwise. */
  lemma {:induction false} ActivationIsExclusive(store: seq<Model>, id: Id)
    requires DistinctIds(store)
    requires forall i :: 0 <= i < |store| ==> (store[i].isActive <==> store[i].id == id)
    ensures (exists i :: 0 <= i < |store| && store[i].id == id) ==>
              Count(store, IsActiveModel) == 1 && GetActive(store).Some? && GetActive(store).value.id == id
    ensures (forall i :: 0 <= i < |store| ==> store[i].id != id) ==>
              Count(store, IsActiveModel) == 0 && GetActive(store) == None
  {
    if k :| 0 <= k < |store| && store[k].id == id {
      CountSingle(store, IsActiveModel, k);
    } else {
      CountNothing(store, IsActiveModel);
    }
  }
}

=== FILE: app.dfy ===
/** The route table of the application (`App.js`): which paths are public,
    which need a login, and which need a role. A path is cut into
    '/'-separated segments and matched against the table's patterns, a
    `:param` pattern segment matching any non-empty segment. */
module Routes {
  import opened Base
  import opened Records
  import opened Access
  import opened Text

  /** A location the table knows, with its path parameters. */
  datatype Loc =
    | LoginLoc | RegisterLoc | ForgotPasswordLoc
    | DashboardLoc | ProjectLoc(id: string) | ProjectDataLoc(id: string) | ResultsLoc(jobId: string)
    | AdminModelsLoc | AdminUnclassifiedLoc | AdminUsersLoc
    | RootLoc

  /** The screens the routes render. */
  datatype Page =
    | LoginPage | RegisterPage | ForgotPasswordPage
    | DashboardPage | ProjectDetailsPage | DataManagementPage | ResultsPage
    | ModelManagementPage | UnclassifiedPoolPage | UserManagementPage

  /** A route's element: a bare page, a page inside `ProtectedRoute`, or a
      `Navigate` to another location. */
  datatype Element = Open(page: Page) | Guarded(req: Option<RequiredRole>, page: Page) | NavigateTo(target: Loc)

  /** What visiting a path shows. */
  datatype Outcome = Show(page: Page) | Loading | RedirectTo(path: string) | Denied | NoMatch

  /** A value a `:param` segment can take: non-empty and free of '/'. */
  predicate ValidParam(s: string)
  {
    s != "" && '/' !in s
  }

  predicate WellFormed(loc: Loc)
  {
    match loc
    case ProjectLoc(id) => ValidParam(id)
    case ProjectDataLoc(id) => ValidParam(id)
    case ResultsLoc(jobId) => ValidParam(jobId)
    case _ => true
  }

  /** The '/'-separated segments of a location's path; the first is
      always empty because every path starts with '/'. */
  function SegmentsOf(loc: Loc): (s: seq<string>)
    ensures |s| >= 2 && s[0] == ""
    ensures WellFormed(loc) ==> forall i :: 0 <= i < |s| ==> '/' !in s[i]
  {
    match loc
    case LoginLoc => ["", "login"]
    case RegisterLoc => ["", "register"]
    case ForgotPasswordLoc => ["", "forgot-password"]
    case DashboardLoc => ["", "dashboard"]
    case ProjectLoc(id) => ["", "project", id]
    case ProjectDataLoc(id) => ["", "project", id, "data"]
    case ResultsLoc(jobId) => ["", "results", jobId]
    case AdminModelsLoc => ["", "admin", "models"]
    case AdminUnclassifiedLoc => ["", "admin", "unclassified"]
    case AdminUsersLoc => ["", "admin", "users"]
    case RootLoc => ["", ""]
  }

  /** The path of a location, as the links and `navigate` calls write it
      (the literal forms are `PublicPaths`, `ProjectPaths` and
      `AdminPaths`). */
  function PathOf(loc: Loc): string
  {
    Join(SegmentsOf(loc), "/")
  }

  /** The patterns of the table, matched against a path's segments: every
      pattern starts with '/', so the first segment is empty, and the
      number of remaining segments selects the candidate patterns. */
  function Resolve(path: string): (r: Option<Loc>)
  {
    Match(Split(path, '/'))
  }

  /** The table's patterns matched against a path's segments. */
  function Match(s: seq<string>): Option<Loc>
  {
    if |s| < 2 || s[0] != "" then None
    else if |s| == 2 then ResolveOne(s[1])
    else if |s| == 3 then ResolveTwo(s[1], s[2])
    else if |s| == 4 && s[1] == "project" && s[2] != "" && s[3] == "data" then Some(ProjectDataLoc(s[2]))
    else None
  }

  /** Patterns with one segment after the leading '/'. */
  function ResolveOne(a: string): Option<Loc>
  {
    if a == "login" then Some(LoginLoc)
    else if a == "register" then Some(RegisterLoc)
    else if a == "forgot-password" then Some(ForgotPasswordLoc)
    else if a == "dashboard" then Some(DashboardLoc)
    else if a == "" then Some(RootLoc)
    else None
  }

  /** Patterns with two segments after the leading '/'. */
  function ResolveTwo(a: string, b: string): Option<Loc>
  {
    if a == "project" && b != "" then Some(ProjectLoc(b))
    else if a == "results" && b != "" then Some(ResultsLoc(b))
    else if a == "admin" && b == "models" then Some(AdminModelsLoc)
    else if a == "admin" && b == "unclassified" then Some(AdminUnclassifiedLoc)
    else if a == "admin" && b == "users" then Some(AdminUsersLoc)
    else None
  }

  /** The element each route renders. */
  function ElementOf(loc: Loc): Element
  {
    match loc
    case LoginLoc => Open(LoginPage)
    case RegisterLoc => Open(RegisterPage)
    case ForgotPasswordLoc => Open(ForgotPasswordPage)
    case DashboardLoc => Guarded(None, DashboardPage)
    case ProjectLoc(_) => Guarded(None, ProjectDetailsPage)
    case ProjectDataLoc(_) => Guarded(None, DataManagementPage)
    case ResultsLoc(_) => Guarded(None, ResultsPage)
    case AdminModelsLoc => Guarded(Some(Exactly(Administrator)), ModelManagementPage)
    case AdminUnclassifiedLoc => Guarded(Some(AnyOf([Administrator, Researcher])), UnclassifiedPoolPage)
    case AdminUsersLoc => Guarded(Some(Exactly(Administrator)), UserManagementPage)
    case RootLoc => NavigateTo(DashboardLoc)
  }

  /** What a route's element shows with the authentication state
      `loading` / `user`. */
  function Render(e: Element, loading: bool, user: Option<User>): Outcome
  {
    match e
    case Open(p) => Show(p)
    case NavigateTo(t) => RedirectTo(PathOf(t))
    case Guarded(req, p) =>
      match Guard(loading, user, req)
      case Spinner => Loading
      case Redirect(to) => RedirectTo(to)
      case AccessDenied => Denied
      case Children => Show(p)
  }

  /** Visiting a path with the authentication state `loading` / `user`. */
  function Visit(path: string, loading: bool, user: Option<User>): Outcome
  {
    match Resolve(path)
    case None => NoMatch
    case Some(loc) => Render(ElementOf(loc), loading, user)
  }

  /** `"/" + a`, written as the join of its two segments. */
  lemma JoinOne(a: string)
    ensures Join(["", a], "/") == "/" + a
  {
    assert ["", a][1..] == [a];
  }

  /** `"/" + a + "/" + b`, written as the join of its three segments. */
  lemma JoinTwo(a: string, b: string)
    ensures Join(["", a, b], "/") == "/" + a + "/" + b
  {
    var segs := ["", a, b];
    assert segs[1..] == [a, b];
    assert segs[1..][1..] == [b];
    assert Join(segs[1..], "/") == a + "/" + b;
    assert Join(segs, "/") == "" + "/" + (a + "/" + b);
  }

  /** `"/" + a + "/" + b + "/" + c`, written as the join of its four
      segments. */
  lemma JoinThree(a: string, b: string, c: string)
    ensures Join(["", a, b, c], "/") == "/" + a + "/" + b + "/" + c
  {
    var segs := ["", a, b, c];
    assert segs[1..] == [a, b, c];
    JoinTwo(a, b);
    assert segs[1..][1..] == [b, c];
    assert segs[1..][1..][1..] == [c];
    assert Join(segs[1..][1..], "/") == b + "/" + c;
    assert Join(segs[1..], "/") == a + "/" + (b + "/" + c);
    assert Join(segs, "/") == "" + "/" + (a + "/" + (b + "/" + c));
  }

  /** The paths of the pages outside a project. */
  lemma PublicPaths()
    ensures PathOf(LoginLoc) == "/login"
    ensures PathOf(RegisterLoc) == "/register"
    ensures PathOf(ForgotPasswordLoc) == "/forgot-password"
    ensures PathOf(DashboardLoc) == "/dashboard"
    ensures PathOf(RootLoc) == "/"
  {
    JoinOne("login");
    JoinOne("register");
    JoinOne("forgot-password");
    JoinOne("dashboard");
    JoinOne("");
  }

  /** The paths built from a project or job id, as the template literals
      write them. */
  lemma ProjectPaths(id: string)
    ensures PathOf(ProjectLoc(id)) == "/project/" + id
    ensures PathOf(ProjectDataLoc(id)) == "/project/" + id + "/data"
    ensures PathOf(ResultsLoc(id)) == "/results/" + id
  {
    JoinTwo("project", id);
    assert "/" + "project" + "/" == "/project/";
    JoinThree("project", id, "data");
    assert "/" + "project" + "/" + id + "/" + "data" == "/project/" + id + "/data";
    JoinTwo("results", id);
    assert "/" + "results" + "/" == "/results/";
  }

  /** The paths of the administration pages. */
  lemma AdminPaths()
    ensures PathOf(AdminModelsLoc) == "/admin/models"
    ensures PathOf(AdminUnclassifiedLoc) == "/admin/unclassified"
    ensures PathOf(AdminUsersLoc) == "/admin/users"
  {
    AdminPath(AdminModelsLoc, "models");
    AdminPath(AdminUnclassifiedLoc, "unclassified");
    AdminPath(AdminUsersLoc, "users");
  }

  /** The path of a location whose segments are `admin` and one more. */
  lemma AdminPath(loc: Loc, page: string)
    requires SegmentsOf(loc) == ["", "admin", page]
    ensures PathOf(loc) == "/admin/" + page
  {
    JoinTwo("admin", page);
    assert "/" + "admin" + "/" == "/admin/";
  }

  /** Every well-formed location's path resolves back to that location. */
  lemma ResolvePathOf(loc: Loc)
    requires WellFormed(loc)
    ensures Resolve(PathOf(loc)) == Some(loc)
  {
    var s := SegmentsOf(loc);
    SplitJoin(s, '/');
    assert Split(PathOf(loc), '/') == s;
    MatchSegmentsOf(loc);
  }

  /** The segments of a well-formed location match that location's
      pattern and no earlier one. */
  lemma MatchSegmentsOf(loc: Loc)
    requires WellFormed(loc)
    ensures Match(SegmentsOf(loc)) == Some(loc)
  {
    match loc
    case ProjectLoc(id) =>
      assert ResolveTwo("project", id) == Some(loc);
    case ResultsLoc(id) =>
      assert ResolveTwo("results", id) == Some(loc);
    case ProjectDataLoc(id) =>
    case _ =>
  }

  /** Every path that resolves is the path of the location it resolves to. */
  lemma PathOfResolve(path: string)
    ensures Resolve(path).Some? ==> WellFormed(Resolve(path).value) && PathOf(Resolve(path).value) == path
  {
    JoinSplit(path, '/');
    MatchInverse(Split(path, '/'));
  }

  /** The segments a pattern matches are the segments of the location it
      yields. */
  lemma MatchInverse(s: seq<string>)
    requires forall i :: 0 <= i < |s| ==> '/' !in s[i]
    ensures Match(s).Some? ==> WellFormed(Match(s).value) && SegmentsOf(Match(s).value) == s
  {
    if Match(s).Some? {
      if |s| == 2 {
        assert s == ["", s[1]];
      } else if |s| == 3 {
        assert '/' !in s[2];
        assert s == ["", s[1], s[2]];
      } else {
        assert '/' !in s[2];
        assert s == ["", s[1], s[2], s[3]];
      }
    }
  }

  /** Visiting a location's path renders that location's element. */
  lemma VisitPath(loc: Loc, loading: bool, user: Option<User>)
    requires WellFormed(loc)
    ensures Visit(PathOf(loc), loading, user) == Render(ElementOf(loc), loading, user)
  {
    ResolvePathOf(loc);
  }

  /** The routes outside `ProtectedRoute`. */
  predicate IsPublic(loc: Loc)
  {
    loc.LoginLoc? || loc.RegisterLoc? || loc.ForgotPasswordLoc?
  }

  /** The users a location's route turns away with Access Denied, stated
      from the role names alone. */
  predicate DeniedTo(loc: Loc, u: User)
  {
    ((loc.AdminModelsLoc? || loc.AdminUsersLoc?) && u.role != Administrator)
    || (loc.AdminUnclassifiedLoc? && u.role != Administrator && u.role != Researcher)
  }

  /** Each public page renders itself whatever the authentication state. */
  lemma PublicPages(loc: Loc, loading: bool, user: Option<User>)
    requires IsPublic(loc)
    ensures Visit(PathOf(loc), loading, user) == Show(ElementOf(loc).page)
    ensures loc.LoginLoc? ==> Visit(PathOf(loc), loading, user) == Show(LoginPage)
    ensures loc.RegisterLoc? ==> Visit(PathOf(loc), loading, user) == Show(RegisterPage)
    ensures loc.ForgotPasswordLoc? ==> Visit(PathOf(loc), loading, user) == Show(ForgotPasswordPage)
  {
    VisitPath(loc, loading, user);
  }

  /** While authentication is loading, every guarded page shows the
      spinner and nothing else does. */
  lemma SpinnerWhileLoading(loc: Loc, user: Option<User>)
    requires WellFormed(loc)
    ensures Visit(PathOf(loc), true, user) == Loading <==> !IsPublic(loc) && !loc.RootLoc?
  {
    VisitPath(loc, true, user);
  }

  /** Without a user, exactly the guarded pages send the visitor to /login. */
  lemma LoginRequired(loc: Loc)
    requires WellFormed(loc)
    ensures Visit(PathOf(loc), false, None) == RedirectTo("/login") <==> !IsPublic(loc) && !loc.RootLoc?
  {
    VisitPath(loc, false, None);
    PublicPaths();
    if loc.RootLoc? {
      assert PathOf(DashboardLoc) != "/login";
    }
  }

  /** A signed-in user is denied exactly the administration pages whose
      role requirement excludes the user's role, and is shown every other
      page except the root, which redirects. */
  lemma RoleAccess(loc: Loc, u: User)
    requires WellFormed(loc)
    ensures Visit(PathOf(loc), false, Some(u)) == Denied <==> DeniedTo(loc, u)
    ensures Visit(PathOf(loc), false, Some(u)).Show? <==> !DeniedTo(loc, u) && !loc.RootLoc?
  {
    VisitPath(loc, false, Some(u));
    RenderAccess(loc, u);
  }

  /** `RoleAccess` for the rendered element. */
  lemma RenderAccess(loc: Loc, u: User)
    ensures Render(ElementOf(loc), false, Some(u)) == Denied <==> DeniedTo(loc, u)
    ensures Render(ElementOf(loc), false, Some(u)).Show? <==> !DeniedTo(loc, u) && !loc.RootLoc?
  {
    if loc.AdminUnclassifiedLoc? {
      var req := Some(AnyOf([Administrator, Researcher]));
      assert Admits(u, req) <==> u.role == Administrator || u.role == Researcher by {
        var roles := [Administrator, Researcher];
        if u.role == Administrator {
          assert roles[0] == u.role;
        } else if u.role == Researcher {
          assert roles[1] == u.role;
        }
      }
    }
  }

  /** A Technician is denied the unclassified pool; a Researcher is
      admitted to it but denied model and user management. */
  lemma TechnicianAndResearcherAccess(u: User)
    ensures u.role == Technician ==> Visit(PathOf(AdminUnclassifiedLoc), false, Some(u)) == Denied
    ensures u.role == Researcher ==> Visit(PathOf(AdminUnclassifiedLoc), false, Some(u)) == Show(UnclassifiedPoolPage)
    ensures u.role == Researcher ==> Visit(PathOf(AdminUsersLoc), false, Some(u)) == Denied
  {
    RoleAccess(AdminUnclassifiedLoc, u);
    VisitPath(AdminUnclassifiedLoc, false, Some(u));
    RoleAccess(AdminUsersLoc, u);
  }

  /** / redirects to /dashboard whatever the authentication state. */
  lemma RootRedirects(loading: bool, user: Option<User>)
    ensures Visit(PathOf(RootLoc), loading, user) == RedirectTo(PathOf(DashboardLoc))
  {
    VisitPath(RootLoc, loading, user);
  }
}

=== FILE: base.dfy ===
/** Shared vocabulary: optional values, failures, and the handful of
    JavaScript Array methods (`includes`, `filter`, `find`, `filter(..).length`)
    that the client's rules are written with. */
module Base {

  /** A value that may be missing (`undefined` / `null` in the client). */
  datatype Option<+T> = None | Some(value: T)

  /** The outcome of a call that can throw: `Err` carries the error message. */
  datatype Result<+T, +E> = Ok(value: T) | Err(error: E)

  /** `a` occurs in `b` in order, possibly with gaps. */
  predicate IsSubsequence<T(==)>(a: seq<T>, b: seq<T>)
    decreases |b|
  {
    |a| == 0 ||
    (|b| > 0 &&
     ((a[0] == b[0] && IsSubsequence(a[1..], b[1..])) || IsSubsequence(a, b[1..])))
  }

  /** `s.includes(x)`: a left-to-right scan with `===`. */
  function Includes<T(==)>(s: seq<T>, x: T): (b: bool)
    ensures b <==> x in s
  {
    if |s| == 0 then false else s[0] == x || Includes(s[1..], x)
  }

  /** `s.filter(p)`: the elements satisfying `p`, each as often as in `s`,
      in their original order. */
  function Filter<T(==,!new)>(s: seq<T>, p: T -> bool): (r: seq<T>)
    ensures |r| <= |s|
    ensures forall i :: 0 <= i < |r| ==> p(r[i])
    ensures forall x :: multiset(r)[x] == if p(x) then multiset(s)[x] else 0
    ensures IsSubsequence(r, s)
  {
    if |s| == 0 then []
    else
      var rest := Filter(s[1..], p);
      assert s == [s[0]] + s[1..];
      if p(s[0]) then
        assert ([s[0]] + rest)[1..] == rest;
        [s[0]] + rest
      else rest
  }

  /** Filtering with two predicates that agree everywhere gives the same
      result. */
  lemma {:induction false} FilterAgrees<T(!new)>(s: seq<T>, p: T -> bool, q: T -> bool)
    requires forall x :: p(x) == q(x)
    ensures Filter(s, p) == Filter(s, q)
    decreases |s|
  {
    if |s| > 0 {
      FilterAgrees(s[1..], p, q);
    }
  }

  /** Filtering with a predicate every element satisfies keeps them all. */
  lemma {:induction false} FilterEverything<T(!new)>(s: seq<T>, p: T -> bool)
    requires forall j :: 0 <= j < |s| ==> p(s[j])
    ensures Filter(s, p) == s
    decreases |s|
  {
    if |s| > 0 {
      FilterEverything(s[1..], p);
      assert s == [s[0]] + s[1..];
    }
  }

  /** `s.filter(p).length`. */
  function Count<T(==,!new)>(s: seq<T>, p: T -> bool): (n: nat)
    ensures n <= |s|
  {
    |Filter(s, p)|
  }

  /** `s.findIndex(p)`, with `None` for -1: the first index whose element
      satisfies `p`. */
  function FindFirst<T>(s: seq<T>, p: T -> bool): (r: Option<nat>)
    ensures r.None? <==> forall i :: 0 <= i < |s| ==> !p(s[i])
    ensures r.Some? ==> r.value < |s| && p(s[r.value])
    ensures r.Some? ==> forall j :: 0 <= j < r.value ==> !p(s[j])
  {
    if |s| == 0 then None
    else if p(s[0]) then Some(0)
    else match FindFirst(s[1..], p)
      case None => None
      case Some(i) => Some(i + 1)
  }

  /** `s.filter(y => y !== x)`: every occurrence of `x` removed, the rest
      kept in order. */
  function Remove<T(==,!new)>(s: seq<T>, x: T): (r: seq<T>)
    ensures x !in r
    ensures forall y :: y != x ==> multiset(r)[y] == multiset(s)[y]
    ensures IsSubsequence(r, s)
  {
    if |s| == 0 then []
    else
      var rest := Remove(s[1..], x);
      assert s == [s[0]] + s[1..];
      if s[0] == x then rest
      else
        assert ([s[0]] + rest)[1..] == rest;
        [s[0]] + rest
  }

  /** Removing an element that is absent from `s` leaves `s` unchanged,
      and so does removing it from `s` with it appended once at the end. */
  lemma {:induction false} RemoveAppended<T(!new)>(s: seq<T>, x: T)
    requires x !in s
    ensures Remove(s + [x], x) == s
    decreases |s|
  {
    if |s| == 0 {
      assert s + [x] == [x];
      assert [x][1..] == [];
    } else {
      assert (s + [x])[0] == s[0];
      assert (s + [x])[1..] == s[1..] + [x];
      RemoveAppended(s[1..], x);
      assert s == [s[0]] + s[1..];
    }
  }

  /** Two predicates that never hold together select at most `|s|`
      elements between them. */
  lemma {:induction false} CountDisjoint2<T(!new)>(s: seq<T>, p: T -> bool, q: T -> bool)
    requires forall x :: !(p(x) && q(x))
    ensures Count(s, p) + Count(s, q) <= |s|
    decreases |s|
  {
    if |s| > 0 {
      CountDisjoint2(s[1..], p, q);
    }
  }

  /** Three pairwise exclusive predicates select at most `|s|` elements
      between them. */
  lemma {:induction false} CountDisjoint3<T(!new)>(s: seq<T>, p: T -> bool, q: T -> bool, r: T -> bool)
    requires forall x :: !(p(x) && q(x)) && !(p(x) && r(x)) && !(q(x) && r(x))
    ensures Count(s, p) + Count(s, q) + Count(s, r) <= |s|
    decreases |s|
  {
    if |s| > 0 {
      CountDisjoint3(s[1..], p, q, r);
    }
  }

  /** When exactly the element at index `k` satisfies `p`, the count is one. */
  lemma {:induction false} CountSingle<T(!new)>(s: seq<T>, p: T -> bool, k: nat)
    requires k < |s| && p(s[k])
    requires forall j :: 0 <= j < |s| && j != k ==> !p(s[j])
    ensures Count(s, p) == 1
    decreases |s|
  {
    if k == 0 {
      CountNothing(s[1..], p);
    } else {
      CountSingle(s[1..], p, k - 1);
    }
  }

  /** When no element satisfies `p`, the count is zero. */
  lemma {:induction false} CountNothing<T(!new)>(s: seq<T>, p: T -> bool)
    requires forall j :: 0 <= j < |s| ==> !p(s[j])
    ensures Count(s, p) == 0
    decreases |s|
  {
    if |s| > 0 {
      CountNothing(s[1..], p);
    }
  }
}

=== FILE: dashboard.dfy ===
/** The project dashboard (`Dashboard.js`): which fetched projects a user
    sees, the body `handleCreateProject` sends, who is offered the New
    Project button, and the member-count label on each card. */
module Dashboard {
  import opened Base
  import opened Json
  import opened Records
  import opened Text
  import opened Forms
  import Api
  import Navbar
  import Routes

  /** The filter `loadProjects` applies to every fetched project: an
      Administrator keeps everything, anyone else the projects listing
      them as a member. */
  predicate Sees(user: User, p: Project)
  {
    user.role == Administrator || Includes(p.members, user.id)
  }

  /** The projects the dashboard lists, in fetched order. */
  function VisibleProjects(user: User, projects: seq<Project>): (r: seq<Project>)
    ensures IsSubsequence(r, projects)
    ensures forall p :: p in r <==> p in projects && (user.role == Administrator || user.id in p.members)
    ensures forall p :: multiset(r)[p] == if user.id in p.members || user.role == Administrator then multiset(projects)[p] else 0
  {
    var r := Filter(projects, p => Sees(user, p));
    assert forall p :: Sees(user, p) <==> user.role == Administrator || user.id in p.members;
    assert forall p :: p in r <==> multiset(r)[p] > 0;
    r
  }

  /** An Administrator sees every fetched project, in fetched order. */
  lemma {:induction false} AdministratorSeesAll(user: User, projects: seq<Project>)
    requires user.role == Administrator
    ensures VisibleProjects(user, projects) == projects
    decreases |projects|
  {
    if |projects| > 0 {
      AdministratorSeesAll(user, projects[1..]);
      assert projects == [projects[0]] + projects[1..];
    }
  }

  /** The JSON encoding of a list of ids. */
  function IdList(ids: seq<Id>): (v: Value)
    ensures v.Arr? && |v.items| == |ids|
    ensures forall i :: 0 <= i < |ids| ==> v.items[i] == Str(ids[i])
  {
    Arr(seq(|ids|, i requires 0 <= i < |ids| => Str(ids[i])))
  }

  /** Two id lists with the same encoding are the same list. */
  lemma IdListInjective(a: seq<Id>, b: seq<Id>)
    requires IdList(a) == IdList(b)
    ensures a == b
  {
    assert |a| == |b|;
    forall i | 0 <= i < |a|
      ensures a[i] == b[i]
    {
      assert IdList(a).items[i] == Str(a[i]);
    }
  }

  /** `handleCreateProject`: the form's fields plus the creator as owner
      and as the only member. */
  function CreateProjectBody(form: Obj, user: User): (b: Obj)
    ensures b.Keys == form.Keys + {"ownerId", "members"}
    ensures b["ownerId"] == Str(user.id)
    ensures b["members"] == IdList([user.id])
    ensures forall k :: k in form && k !in {"ownerId", "members"} ==> b[k] == form[k]
  {
    form + map["ownerId" := Str(user.id), "members" := IdList([user.id])]
  }

  /** The project `projectAPI.create` stores from the dashboard's body:
      owned by its creator, with the creator as its only member, both
      stamps, and the form's other fields. */
  lemma CreatedProjectStored(form: Obj, user: User, createdAt: string, updatedAt: string)
    ensures var stored := Api.ProjectCreateBody(CreateProjectBody(form, user), createdAt, updatedAt);
            stored["ownerId"] == Str(user.id) && stored["members"] == IdList([user.id]) &&
            stored["createdAt"] == Str(createdAt) && stored["updatedAt"] == Str(updatedAt) &&
            forall k :: k in form && k !in {"ownerId", "members", "createdAt", "updatedAt"} ==> stored[k] == form[k]
  {
  }

  /** The form after a successful creation, and initially. */
  const EmptyForm: Obj := map["name" := Str(""), "description" := Str(""), "status" := Str("Active")]

  /** The New Project modal's `required` fields: the name input and the
      description textarea. */
  const CreateRequired: seq<string> := ["name", "description"]

  /** The page's first state: the modal hidden, the form empty. */
  const InitialDialog := Dialog(EmptyForm, false)

  /** `handleCreateProject` with the request's outcome `created`, or
      nothing when the browser blocks the form: the create body is sent; on
      success the modal closes and the form is reset, on failure both stay
      as they were. */
  function HandleCreateProject(d: Dialog, user: User, created: bool): (r: Option<Step>)
    ensures r.Some? <==> Filled(d.form, "name") && Filled(d.form, "description")
    ensures r.Some? ==> r.value.body.Keys == d.form.Keys + {"ownerId", "members"}
    ensures r.Some? ==> r.value.body["ownerId"] == Str(user.id) && r.value.body["members"] == IdList([user.id])
    ensures r.Some? && created ==> !r.value.dialog.open && r.value.dialog.form.Keys == {"name", "description", "status"}
  {
    assert CreateRequired[0] == "name" && CreateRequired[1] == "description";
    if !AllFilled(d.form, CreateRequired) then None
    else Some(Step(CreateProjectBody(d.form, user), if created then InitialDialog else d))
  }

  /** A successful creation leaves the dialog as the page first showed it,
      whatever was typed: a blank name and description with status Active,
      which the browser will not submit again until both are typed. A
      failed one keeps the modal and its form, so submitting again sends the
      same body. */
  lemma CreateResetsForm(d: Dialog, user: User, created: bool)
    ensures HandleCreateProject(d, user, created).Some? && created ==>
              HandleCreateProject(d, user, created).value.dialog == InitialDialog
    ensures HandleCreateProject(d, user, created).Some? && created ==>
              var f := HandleCreateProject(d, user, created).value.dialog.form;
              f["name"] == Str("") && f["description"] == Str("") && f["status"] == Str("Active")
    ensures HandleCreateProject(InitialDialog, user, created).None?
    ensures HandleCreateProject(d, user, created).Some? && !created ==>
              HandleCreateProject(d, user, created).value.dialog == d &&
              HandleCreateProject(HandleCreateProject(d, user, created).value.dialog, user, created)
                == HandleCreateProject(d, user, created)
  {
    assert !Filled(EmptyForm, "name");
  }

  /** A stored project whose member list is the one the create body sent
      is listed on its creator's dashboard, whatever the creator's role,
      and the creator is its owner. */
  lemma CreatorSeesNewProject(form: Obj, user: User, projects: seq<Project>, p: Project)
    requires IdList(p.members) == CreateProjectBody(form, user)["members"]
    ensures p.members == [user.id]
    ensures p in VisibleProjects(user, projects + [p])
  {
    IdListInjective(p.members, [user.id]);
  }

  /** The New Project button. */
  predicate OffersNewProject(user: User)
  {
    user.role == Administrator || user.role == Researcher
  }

  /** The New Project button is offered to exactly the users whose menu
      holds the Unclassified Pool link; a Technician never gets it. */
  lemma NewProjectLikePoolLink(user: User)
    ensures OffersNewProject(user) <==> Navbar.LinksTo(Navbar.MenuLinks(Some(user)), Routes.AdminUnclassifiedLoc)
    ensures user.role == Technician ==> !OffersNewProject(user)
  {
  }

  /** The empty-state hint: Technicians are told they will be assigned,
      everybody else is told to create a project. */
  function EmptyStateHint(user: User): (s: string)
    ensures user.role == Technician <==> s == "You will see projects here when assigned to them."
  {
    if user.role == Technician then "You will see projects here when assigned to them."
    else "Create your first project to get started with eDNA analysis."
  }

  /** The hint and the button agree: whoever holds the New Project button
      is told to create a project, and for the three roles the converse
      holds too; a Technician is told to wait and has no button. */
  lemma HintMatchesButton(user: User)
    ensures OffersNewProject(user) ==> EmptyStateHint(user) == "Create your first project to get started with eDNA analysis."
    ensures user.role == Technician ==>
              !OffersNewProject(user) && EmptyStateHint(user) == "You will see projects here when assigned to them."
    ensures user.role in {Administrator, Researcher, Technician} ==>
              (OffersNewProject(user) <==> EmptyStateHint(user) == "Create your first project to get started with eDNA analysis.")
  {
  }

  /** The member count on a project card: the number, " member", and an
      "s" unless the number is 1. */
  function MemberLabel(n: nat): (s: string)
    ensures MemberLabelParts(s, n)
  {
    NatToString(n) + " member" + (if n != 1 then "s" else "")
  }

  /** `s` is the count's digits followed by " member" or " members", the
      plural exactly when the count is not 1. */
  predicate MemberLabelParts(s: string, n: nat)
  {
    var d := NatToString(n);
    d <= s && s[|d|..] == (if n == 1 then " member" else " members")
  }

  /** The label ends in 's' exactly when the count is not 1. */
  lemma MemberLabelPlural(n: nat)
    ensures MemberLabel(n)[|MemberLabel(n)| - 1] == 's' <==> n != 1
  {
    var s := MemberLabel(n);
    assert MemberLabelParts(s, n);
    var d := NatToString(n);
    assert s[|s| - 1] == s[|d|..][|s| - |d| - 1];
  }
}

=== FILE: data_management.dfy ===
/** The data page of a project (`DataManagement.js`): the dataset
    selection (row checkboxes and the header checkbox), the analysis
    parameters, the job requests Run Analysis sends, and the upload body. */
module DataManagement {
  import opened Base
  import opened Json
  import opened Records
  import opened Forms
  import Api
  import Routes

  // ------------------------------------------------------------ selection

  /** No id is selected twice. */
  predicate NoDuplicates(sel: seq<Id>)
  {
    forall i, j :: 0 <= i < j < |sel| ==> sel[i] != sel[j]
  }

  /** `toggleDatasetSelection`: a selected id is removed (every occurrence
      of it); an unselected one is appended at the end. */
  function Toggle(sel: seq<Id>, id: Id): (r: seq<Id>)
    ensures id in r <==> id !in sel
    ensures id !in sel ==> r == sel + [id]
    ensures id in sel ==> IsSubsequence(r, sel)
    ensures forall x :: x != id ==> multiset(r)[x] == multiset(sel)[x]
    ensures forall x :: x != id ==> (x in r <==> x in sel)
  {
    var r := if Includes(sel, id) then Remove(sel, id) else sel + [id];
    assert forall x :: (x in r <==> multiset(r)[x] > 0) && (x in sel <==> multiset(sel)[x] > 0);
    r
  }

  /** Toggling an unselected id twice gives back the selection. */
  lemma ToggleTwice(sel: seq<Id>, id: Id)
    requires id !in sel
    ensures Toggle(Toggle(sel, id), id) == sel
  {
    RemoveAppended(sel, id);
  }

  /** Toggling keeps a selection free of duplicates. */
  lemma ToggleNoDuplicates(sel: seq<Id>, id: Id)
    requires NoDuplicates(sel)
    ensures NoDuplicates(Toggle(sel, id))
  {
    var r := Toggle(sel, id);
    forall x ensures multiset(r)[x] <= 1 {
      MultisetAtMostOne(sel, x);
    }
    AtMostOnceNoDuplicates(r);
  }

  /** A sequence in which no id occurs twice has no duplicates. */
  lemma AtMostOnceNoDuplicates(s: seq<Id>)
    requires forall x :: multiset(s)[x] <= 1
    ensures NoDuplicates(s)
  {
    forall i, j | 0 <= i < j < |s|
      ensures s[i] != s[j]
    {
      if s[i] == s[j] {
        Twice(s, i, j);
      }
    }
  }

  /** An id found at two positions occurs at least twice. */
  lemma Twice(s: seq<Id>, i: nat, j: nat)
    requires i < j < |s| && s[i] == s[j]
    ensures multiset(s)[s[i]] >= 2
  {
    assert s == s[..i] + [s[i]] + s[i + 1..j] + [s[j]] + s[j + 1..];
  }

  /** In a selection without duplicates an id occurs at most once. */
  lemma {:induction false} MultisetAtMostOne(sel: seq<Id>, x: Id)
    requires NoDuplicates(sel)
    ensures multiset(sel)[x] <= 1
    decreases |sel|
  {
    if |sel| > 0 {
      MultisetAtMostOne(sel[1..], x);
      assert sel == [sel[0]] + sel[1..];
      if sel[0] == x {
        assert x !in sel[1..];
      }
    }
  }

  /** The ids of the datasets, in table order. */
  function Ids(datasets: seq<Dataset>): (ids: seq<Id>)
    ensures |ids| == |datasets|
    ensures forall i :: 0 <= i < |datasets| ==> ids[i] == datasets[i].id
  {
    seq(|datasets|, i requires 0 <= i < |datasets| => datasets[i].id)
  }

  /** The header checkbox is checked when as many ids are selected as
      there are datasets. */
  predicate HeaderChecked(sel: seq<Id>, datasets: seq<Dataset>)
  {
    |sel| == |datasets|
  }

  /** Clicking the header checkbox: checking selects every dataset in table
      order, unchecking clears the selection. */
  function HeaderClick(checked: bool, datasets: seq<Dataset>): (r: seq<Id>)
    ensures checked ==> HeaderChecked(r, datasets) && forall i :: 0 <= i < |datasets| ==> r[i] == datasets[i].id
    ensures !checked ==> r == []
  {
    if checked then Ids(datasets) else []
  }

  /** The elements of a duplicate-free sequence are as many as its
      length. */
  lemma {:induction false} DistinctCard(s: seq<Id>)
    requires NoDuplicates(s)
    ensures |set x | x in s| == |s|
    decreases |s|
  {
    if |s| > 0 {
      DistinctCard(s[1..]);
      assert (set x | x in s) == (set x | x in s[1..]) + {s[0]};
      assert s[0] !in s[1..];
    }
  }

  /** A subset as large as its superset is the superset. */
  lemma {:induction false} SubsetCard(a: set<Id>, b: set<Id>)
    requires a <= b && |a| == |b|
    ensures a == b
  {
    if a != b {
      var y :| y in b && y !in a;
      assert a <= b - {y};
      SubsetShrinks(a, b - {y});
    }
  }

  /** A subset is no larger than its superset. */
  lemma {:induction false} SubsetShrinks(a: set<Id>, b: set<Id>)
    requires a <= b
    ensures |a| <= |b|
    decreases |b|
  {
    if a != {} {
      var x :| x in a;
      SubsetShrinks(a - {x}, b - {x});
    }
  }

  /** For a duplicate-free selection of the table's (distinct) ids, the
      header checkbox is checked exactly when every dataset is selected. */
  lemma HeaderCheckedIffAll(sel: seq<Id>, datasets: seq<Dataset>)
    requires NoDuplicates(sel) && NoDuplicates(Ids(datasets))
    requires forall x :: x in sel ==> x in Ids(datasets)
    ensures HeaderChecked(sel, datasets) <==> forall i :: 0 <= i < |datasets| ==> datasets[i].id in sel
  {
    var ids := Ids(datasets);
    var a, b := set x | x in sel, set x | x in ids;
    DistinctCard(sel);
    DistinctCard(ids);
    if HeaderChecked(sel, datasets) {
      SubsetCard(a, b);
      forall i | 0 <= i < |datasets|
        ensures datasets[i].id in sel
      {
        assert ids[i] in b;
      }
    }
    if forall i :: 0 <= i < |datasets| ==> datasets[i].id in sel {
      assert b <= a;
      assert a == b;
    }
  }

  // --------------------------------------------------------------- delete

  /** The table and its selection. */
  datatype Table = Table(selection: seq<Id>, datasets: seq<Dataset>)

  /** The selection holds distinct ids of rows of a table whose ids are
      distinct: what `HeaderCheckedIffAll` needs. */
  predicate Consistent(t: Table)
  {
    NoDuplicates(t.selection) && NoDuplicates(Ids(t.datasets)) &&
    forall x :: x in t.selection ==> x in Ids(t.datasets)
  }

  function NotId(id: Id): Dataset -> bool
  {
    (d: Dataset) => d.id != id
  }

  /** Reloading after a deletion drops the deleted id from the table's ids
      and keeps the others in order. */
  lemma {:induction false} IdsFilter(ds: seq<Dataset>, id: Id)
    ensures Ids(Filter(ds, NotId(id))) == Remove(Ids(ds), id)
    decreases |ds|
  {
    if |ds| > 0 {
      var d, tail := ds[0], ds[1..];
      var rest := Filter(tail, NotId(id));
      IdsFilter(tail, id);
      var ids := Ids(ds);
      assert ids[0] == d.id && ids[1..] == Ids(tail);
      if d.id == id {
        assert Filter(ds, NotId(id)) == rest;
        assert Remove(ids, id) == Remove(Ids(tail), id);
      } else {
        assert NotId(id)(d);
        assert Filter(ds, NotId(id)) == [d] + rest;
        assert Remove(ids, id) == [d.id] + Remove(Ids(tail), id);
        IdsCons(d, rest);
      }
    }
  }

  /** The ids of a dataset followed by others. */
  lemma IdsCons(d: Dataset, rest: seq<Dataset>)
    ensures Ids([d] + rest) == [d.id] + Ids(rest)
  {
    var a, b := Ids([d] + rest), [d.id] + Ids(rest);
    forall i | 0 <= i < |a|
      ensures a[i] == b[i]
    {
      if i > 0 {
        assert ([d] + rest)[i] == rest[i - 1];
      }
    }
  }

  /** `handleDelete` as written: when the deletion is confirmed and
      succeeds, the table is reloaded without the dataset, and the
      selection is left as it was; otherwise nothing changes. */
  function HandleDelete(t: Table, id: Id, deleted: bool): (r: Table)
    ensures r.selection == t.selection
    ensures deleted ==> Ids(r.datasets) == Remove(Ids(t.datasets), id) && IsSubsequence(r.datasets, t.datasets)
    ensures !deleted ==> r == t
  {
    if deleted then IdsFilter(t.datasets, id); Table(t.selection, Filter(t.datasets, NotId(id)))
    else t
  }

  /** So deleting a selected dataset leaves its id selected: with rows a, b,
      c and a, b selected, deleting a checks the header checkbox although c
      is not selected, and Run Analysis would still submit a job for a. */
  lemma StaleSelection(a: Dataset, b: Dataset, c: Dataset, user: User, params: Obj)
    requires a.id != b.id && a.id != c.id && b.id != c.id && ParamsOnly(params)
    ensures Consistent(Table([a.id, b.id], [a, b, c]))
    ensures !HeaderChecked([a.id, b.id], [a, b, c])
    ensures var after := HandleDelete(Table([a.id, b.id], [a, b, c]), a.id, true);
            HeaderChecked(after.selection, after.datasets) &&
            c.id in Ids(after.datasets) && c.id !in after.selection && a.id !in Ids(after.datasets)
    ensures var after := HandleDelete(Table([a.id, b.id], [a, b, c]), a.id, true);
            JobRequests(after.selection, a.projectId, user, params)[0]["datasetId"] == Str(a.id)
  {
    StaleSelectionRows(a, b, c);
    var after := HandleDelete(Table([a.id, b.id], [a, b, c]), a.id, true);
    var sel, ids := after.selection, Ids(after.datasets);
    assert sel == [a.id, b.id] && ids == [b.id, c.id];
    assert c.id in ids && c.id !in sel && a.id !in ids;
    var rs := JobRequests(sel, a.projectId, user, params);
    assert rs[0] == JobRequest(a.id, a.projectId, user, params);
    ParamsOnlyExcludes(params);
  }

  /** The rows of `StaleSelection`, before and after deleting a. */
  lemma StaleSelectionRows(a: Dataset, b: Dataset, c: Dataset)
    requires a.id != b.id && a.id != c.id && b.id != c.id
    ensures Consistent(Table([a.id, b.id], [a, b, c]))
    ensures var after := HandleDelete(Table([a.id, b.id], [a, b, c]), a.id, true);
            after.selection == [a.id, b.id] && Ids(after.datasets) == [b.id, c.id] &&
            |after.datasets| == 2
  {
    ThreeIds(a, b, c);
    var ids := [a.id, b.id, c.id];
    assert NoDuplicates(ids) by {
      assert ids[0] == a.id && ids[1] == b.id && ids[2] == c.id;
    }
    var after := HandleDelete(Table([a.id, b.id], [a, b, c]), a.id, true);
    assert |after.datasets| == |Ids(after.datasets)|;
  }

  /** The ids of three rows, and what deleting the first leaves. */
  lemma ThreeIds(a: Dataset, b: Dataset, c: Dataset)
    requires a.id != b.id && a.id != c.id && b.id != c.id
    ensures Ids([a, b, c]) == [a.id, b.id, c.id]
    ensures Remove([a.id, b.id, c.id], a.id) == [b.id, c.id]
  {
    IdsCons(c, []);
    IdsCons(b, [c]);
    IdsCons(a, [b, c]);
    assert [a] + [b, c] == [a, b, c] && [b] + [c] == [b, c];
    var ids := [a.id, b.id, c.id];
    assert ids[1..] == [b.id, c.id] && ids[1..][1..] == [c.id] && ids[1..][1..][1..] == [];
    assert Remove([c.id], a.id) == [c.id];
    assert Remove([b.id, c.id], a.id) == [b.id, c.id];
  }

  /** `handleDelete` as intended: the deleted id also leaves the selection. */
  function HandleDeleteIntended(t: Table, id: Id, deleted: bool): (r: Table)
    ensures id !in r.selection || !deleted
    ensures deleted ==> r.datasets == HandleDelete(t, id, deleted).datasets
    ensures forall x :: x != id ==> (x in r.selection <==> x in t.selection)
    ensures !deleted ==> r == t
  {
    if deleted then
      var sel := Remove(t.selection, id);
      assert forall x :: (x in sel <==> multiset(sel)[x] > 0) && (x in t.selection <==> multiset(t.selection)[x] > 0);
      Table(sel, HandleDelete(t, id, deleted).datasets)
    else t
  }

  /** Every change the page makes to a consistent table keeps it
      consistent when deletions are intended: toggling a row, clicking the
      header, deleting. */
  lemma ChangesKeepConsistent(t: Table, id: Id, checked: bool, deleted: bool)
    requires Consistent(t)
    ensures id in Ids(t.datasets) ==> Consistent(t.(selection := Toggle(t.selection, id)))
    ensures Consistent(t.(selection := HeaderClick(checked, t.datasets)))
    ensures Consistent(HandleDeleteIntended(t, id, deleted))
  {
    ToggleKeepsConsistent(t, id);
    HeaderClickKeepsConsistent(t, checked);
    DeleteKeepsConsistent(t, id, deleted);
  }

  /** Toggling a row of a consistent table keeps it consistent. */
  lemma ToggleKeepsConsistent(t: Table, id: Id)
    requires Consistent(t)
    ensures id in Ids(t.datasets) ==> Consistent(t.(selection := Toggle(t.selection, id)))
  {
    ToggleNoDuplicates(t.selection, id);
  }

  /** Clicking the header of a consistent table keeps it consistent. */
  lemma HeaderClickKeepsConsistent(t: Table, checked: bool)
    requires Consistent(t)
    ensures Consistent(t.(selection := HeaderClick(checked, t.datasets)))
  {
    assert HeaderClick(checked, t.datasets) == Ids(t.datasets) || HeaderClick(checked, t.datasets) == [];
  }

  /** The intended delete keeps a consistent table consistent. */
  lemma DeleteKeepsConsistent(t: Table, id: Id, deleted: bool)
    requires Consistent(t)
    ensures Consistent(HandleDeleteIntended(t, id, deleted))
  {
    if deleted {
      var r := HandleDeleteIntended(t, id, deleted);
      var ids := Ids(t.datasets);
      assert Ids(r.datasets) == Remove(ids, id);
      forall x ensures multiset(r.selection)[x] <= 1 && multiset(Ids(r.datasets))[x] <= 1 {
        MultisetAtMostOne(t.selection, x);
        MultisetAtMostOne(ids, x);
      }
      AtMostOnceNoDuplicates(r.selection);
      AtMostOnceNoDuplicates(Ids(r.datasets));
      forall x | x in r.selection
        ensures x in Ids(r.datasets)
      {
        assert multiset(ids)[x] > 0;
      }
    }
  }

  /** So, with intended deletions, the header checkbox is checked exactly
      when every row is selected, whatever sequence of changes led there. */
  lemma DeleteKeepsHeaderExact(t: Table, id: Id, deleted: bool)
    requires Consistent(t)
    ensures var r := HandleDeleteIntended(t, id, deleted);
            HeaderChecked(r.selection, r.datasets) <==>
              forall i :: 0 <= i < |r.datasets| ==> r.datasets[i].id in r.selection
  {
    ChangesKeepConsistent(t, id, false, deleted);
    var r := HandleDeleteIntended(t, id, deleted);
    HeaderCheckedIffAll(r.selection, r.datasets);
  }

  // --------------------------------------------------------- run analysis

  /** The analysis parameters before the active model is known. */
  const DefaultParams: Obj :=
    map["modelVersion" := Str(""), "minConfidence" := Num(0.75), "taxonomicLevel" := Str("species")]

  /** After loading, `modelVersion` is the active model's version, or ''
      when there is no active model. */
  function LoadParams(params: Obj, active: Option<Model>): (r: Obj)
    ensures r.Keys == params.Keys + {"modelVersion"}
    ensures active.None? ==> r["modelVersion"] == Str("")
    ensures active.Some? ==> r["modelVersion"] == Str(active.value.version)
    ensures forall k :: k in params && k != "modelVersion" ==> r[k] == params[k]
  {
    params + map["modelVersion" := Str(if active.Some? then active.value.version else "")]
  }

  /** The loaded parameters keep the defaults for confidence and level,
      and use the version `getActive` finds among the stored models. */
  lemma LoadedDefaults(models: seq<Model>)
    ensures var p := LoadParams(DefaultParams, Api.GetActive(models));
            p["minConfidence"] == Num(0.75) && p["taxonomicLevel"] == Str("species") &&
            ((forall i :: 0 <= i < |models| ==> !models[i].isActive) ==> p["modelVersion"] == Str(""))
  {
  }

  /** The job request for one selected dataset: its id, the project, the
      submitting user and status "Queued", then the parameters spread over
      them. */
  function JobRequest(datasetId: Id, projectId: Id, user: User, params: Obj): (b: Obj)
    ensures b.Keys == params.Keys + {"datasetId", "projectId", "submittedBy", "status"}
    ensures forall k :: k in params ==> b[k] == params[k]
    ensures "datasetId" !in params ==> b["datasetId"] == Str(datasetId)
    ensures "projectId" !in params ==> b["projectId"] == Str(projectId)
    ensures "submittedBy" !in params ==> b["submittedBy"] == Str(user.id)
    ensures "status" !in params ==> b["status"] == Str("Queued")
  {
    map["datasetId" := Str(datasetId), "projectId" := Str(projectId),
        "submittedBy" := Str(user.id), "status" := Str("Queued")] + params
  }

  /** `handleRunAnalysis`: one request per selected id, in selection
      order. */
  function JobRequests(sel: seq<Id>, projectId: Id, user: User, params: Obj): (rs: seq<Obj>)
    ensures |rs| == |sel|
    ensures forall i :: 0 <= i < |sel| ==> rs[i] == JobRequest(sel[i], projectId, user, params)
  {
    seq(|sel|, i requires 0 <= i < |sel| => JobRequest(sel[i], projectId, user, params))
  }

  /** The parameters never carry the request's own fields. */
  predicate ParamsOnly(params: Obj)
  {
    params.Keys <= {"modelVersion", "minConfidence", "taxonomicLevel"}
  }

  /** So the parameters never carry a key the request or the job record
      sets itself. */
  lemma ParamsOnlyExcludes(params: Obj)
    requires ParamsOnly(params)
    ensures "datasetId" !in params && "projectId" !in params && "submittedBy" !in params
    ensures "status" !in params && "submittedAt" !in params && "progress" !in params
  {
    forall k | k in params
      ensures |k| > 0 && (k[0] == 'm' || k[0] == 't')
    {
      assert k == "modelVersion" || k == "minConfidence" || k == "taxonomicLevel";
    }
    assert "datasetId"[0] == 'd' && "projectId"[0] == 'p' && "progress"[0] == 'p';
    assert "submittedBy"[0] == 's' && "status"[0] == 's' && "submittedAt"[0] == 's';
  }

  /** Every job the fan-out creates is stored with its dataset, the
      project, the submitter, status "Queued", progress 0 and the
      parameters. */
  lemma FanOutJobs(sel: seq<Id>, projectId: Id, user: User, params: Obj, now: string, i: int)
    requires ParamsOnly(params) && 0 <= i < |sel|
    ensures var job := Api.JobCreateBody(JobRequests(sel, projectId, user, params)[i], now);
            job["datasetId"] == Str(sel[i]) && job["projectId"] == Str(projectId) &&
            job["submittedBy"] == Str(user.id) && job["status"] == Str("Queued") &&
            job["progress"] == Num(0.0) &&
            forall k :: k in params ==> job[k] == params[k]
  {
    var req := JobRequests(sel, projectId, user, params)[i];
    assert req == JobRequest(sel[i], projectId, user, params);
    ParamsOnlyExcludes(params);
  }

  /** The Run Analysis button, labelled with the selection's size, appears
      only for a non-empty selection. */
  function RunButton(sel: seq<Id>): (b: Option<nat>)
    ensures b.Some? <==> |sel| > 0
    ensures b.Some? ==> b.value == |sel|
  {
    if |sel| > 0 then Some(|sel|) else None
  }

  /** The page state after Run Analysis: the selection, and where the
      browser goes. */
  datatype AfterRun = AfterRun(selection: seq<Id>, goTo: Option<Routes.Loc>)

  /** The outcome of the fan-out given which requests succeeded: when all
      did, the selection is cleared and the browser returns to the project;
      when any failed, nothing changes. */
  function RunAnalysis(sel: seq<Id>, projectId: Id, succeeded: seq<bool>): (r: AfterRun)
    requires |succeeded| == |sel|
    ensures (forall i :: 0 <= i < |sel| ==> succeeded[i]) ==>
              r.selection == [] && r.goTo == Some(Routes.ProjectLoc(projectId))
    ensures (exists i :: 0 <= i < |sel| && !succeeded[i]) ==> r == AfterRun(sel, None)
  {
    if forall i :: 0 <= i < |sel| ==> succeeded[i] then AfterRun([], Some(Routes.ProjectLoc(projectId)))
    else AfterRun(sel, None)
  }

  /** After a run that fully succeeded the button is gone; after one that
      partly failed the selection and the button stay, and submitting
      again sends the same requests, including those that already
      succeeded. */
  lemma RunOutcomes(sel: seq<Id>, projectId: Id, user: User, params: Obj, succeeded: seq<bool>)
    requires |succeeded| == |sel|
    ensures (forall i :: 0 <= i < |sel| ==> succeeded[i]) ==>
              RunButton(RunAnalysis(sel, projectId, succeeded).selection).None?
    ensures (exists i :: 0 <= i < |sel| && !succeeded[i]) ==>
              RunButton(RunAnalysis(sel, projectId, succeeded).selection) == RunButton(sel) &&
              JobRequests(RunAnalysis(sel, projectId, succeeded).selection, projectId, user, params)
                == JobRequests(sel, projectId, user, params)
  {
  }

  // --------------------------------------------------------------- upload

  /** `handleUpload`: the form plus the project, the uploader, status
      "Uploaded" and the placeholder size, which override any such form
      fields. */
  function UploadBody(form: Obj, projectId: Id, user: User): (b: Obj)
    ensures b.Keys == form.Keys + {"projectId", "uploadedBy", "status", "size"}
    ensures b["projectId"] == Str(projectId) && b["uploadedBy"] == Str(user.id)
    ensures b["status"] == Str("Uploaded") && b["size"] == Str("25 MB")
    ensures forall k :: k in form && k !in {"projectId", "uploadedBy", "status", "size"} ==> b[k] == form[k]
  {
    form + map["projectId" := Str(projectId), "uploadedBy" := Str(user.id),
               "status" := Str("Uploaded"), "size" := Str("25 MB")]
  }

  /** The upload modal's `required` inputs: two text fields, five number
      fields and the collection date. */
  const UploadRequired: seq<string> :=
    ["sampleId", "filename", "latitude", "longitude", "depth", "collectionDate", "temperature", "salinity"]

  /** The upload form as the page first shows it, and after a successful
      upload: every field blank. */
  const EmptyUpload: Obj :=
    map["sampleId" := Str(""), "filename" := Str(""), "latitude" := Str(""), "longitude" := Str(""),
        "depth" := Str(""), "collectionDate" := Str(""), "temperature" := Str(""), "salinity" := Str("")]

  /** The page's first upload state: the modal hidden, the form blank. */
  const InitialUpload := Dialog(EmptyUpload, false)

  /** Every input of the upload form holds something. */
  predicate UploadComplete(form: Obj)
  {
    Filled(form, "sampleId") && Filled(form, "filename") && Filled(form, "latitude") &&
    Filled(form, "longitude") && Filled(form, "depth") && Filled(form, "collectionDate") &&
    Filled(form, "temperature") && Filled(form, "salinity")
  }

  /** `handleUpload` with the request's outcome `uploaded`, or nothing when
      the browser blocks the form: the upload body is sent; on success the
      modal closes and the form is blanked, on failure both stay as they
      were. */
  function HandleUpload(d: Dialog, projectId: Id, user: User, uploaded: bool): (r: Option<Step>)
    ensures r.Some? <==> UploadComplete(d.form)
    ensures r.Some? ==> r.value.body == UploadBody(d.form, projectId, user)
    ensures r.Some? && uploaded ==> !r.value.dialog.open && !UploadComplete(r.value.dialog.form)
    ensures r.Some? && !uploaded ==> r.value.dialog == d
  {
    UploadRequiredFilled(d.form);
    assert !Filled(EmptyUpload, "sampleId");
    if !AllFilled(d.form, UploadRequired) then None
    else Some(Step(UploadBody(d.form, projectId, user), if uploaded then InitialUpload else d))
  }

  /** The browser's check of the upload form's `required` inputs is
      `UploadComplete`. */
  lemma UploadRequiredFilled(form: Obj)
    ensures AllFilled(form, UploadRequired) <==> UploadComplete(form)
  {
    var r := UploadRequired;
    assert r[0] == "sampleId" && r[1] == "filename" && r[2] == "latitude" && r[3] == "longitude";
    assert r[4] == "depth" && r[5] == "collectionDate" && r[6] == "temperature" && r[7] == "salinity";
  }

  /** A successful upload blanks the form, which the browser will not
      submit again until every field is typed; a failed one keeps the modal
      and its form, so submitting again sends the same body. */
  lemma UploadResetsForm(d: Dialog, projectId: Id, user: User, uploaded: bool)
    ensures HandleUpload(d, projectId, user, uploaded).Some? && uploaded ==>
              HandleUpload(d, projectId, user, uploaded).value.dialog == InitialUpload
    ensures HandleUpload(InitialUpload, projectId, user, uploaded).None?
    ensures HandleUpload(d, projectId, user, uploaded).Some? && !uploaded ==>
              HandleUpload(HandleUpload(d, projectId, user, uploaded).value.dialog, projectId, user, uploaded)
                == HandleUpload(d, projectId, user, uploaded)
  {
    assert !Filled(EmptyUpload, "sampleId");
  }

  /** The stored dataset belongs to the page's project, is "Uploaded", and
      carries its upload time. */
  lemma UploadedDataset(form: Obj, projectId: Id, user: User, now: string)
    ensures var d := Api.DatasetCreateBody(UploadBody(form, projectId, user), now);
            d["projectId"] == Str(projectId) && d["status"] == Str("Uploaded") &&
            d["uploadedAt"] == Str(now)
  {
  }
}

=== FILE: navbar.dfy ===
/** The navigation bar (`Navbar.js`): which menu links a user sees, and
    what logging out does. */
module Navbar {
  import opened Base
  import opened Records
  import opened Routes

  /** A menu link: its label and the location it points to. */
  datatype Link = Link(caption: string, to: Loc)

  /** The signed-in user (if any) and the path the browser is at. */
  datatype Session = Session(user: Option<User>, at: string)

  /** The session's user has one of `roles`; false without a user. */
  predicate HasRole(user: Option<User>, roles: set<string>)
  {
    user.Some? && user.value.role in roles
  }

  /** Some link of `ls` points to `loc`. */
  predicate LinksTo(ls: seq<Link>, loc: Loc)
  {
    exists i :: 0 <= i < |ls| && ls[i].to == loc
  }

  /** The menu, in the order it is drawn: Dashboard for everybody, then
      the Unclassified Pool for Administrators and Researchers, then Models
      and Users for Administrators. */
  function MenuLinks(user: Option<User>): (ls: seq<Link>)
    ensures |ls| >= 1 && ls[0] == Link("Dashboard", DashboardLoc)
    ensures LinksTo(ls, AdminUnclassifiedLoc) <==> HasRole(user, {Administrator, Researcher})
    ensures LinksTo(ls, AdminModelsLoc) <==> HasRole(user, {Administrator})
    ensures LinksTo(ls, AdminUsersLoc) <==> HasRole(user, {Administrator})
    ensures forall i :: 0 <= i < |ls| ==>
              ls[i].to in {DashboardLoc, AdminUnclassifiedLoc, AdminModelsLoc, AdminUsersLoc}
  {
    var dashboard := Link("Dashboard", DashboardLoc);
    var pool := Link("Unclassified Pool", AdminUnclassifiedLoc);
    if user.Some? && user.value.role == Administrator then
      var ls := [dashboard, pool, Link("Models", AdminModelsLoc), Link("Users", AdminUsersLoc)];
      assert ls[1].to == AdminUnclassifiedLoc && ls[2].to == AdminModelsLoc && ls[3].to == AdminUsersLoc;
      ls
    else if user.Some? && user.value.role == Researcher then
      var ls := [dashboard, pool];
      assert ls[1].to == AdminUnclassifiedLoc;
      ls
    else
      [dashboard]
  }

  /** Every link the menu shows a signed-in user leads to a page the route
      table shows that user: the menu never offers an Access Denied page. */
  lemma MenuLinksAdmitted(u: User, i: int)
    requires 0 <= i < |MenuLinks(Some(u))|
    ensures Visit(PathOf(MenuLinks(Some(u))[i].to), false, Some(u)).Show?
  {
    var ls := MenuLinks(Some(u));
    var loc := ls[i].to;
    assert LinksTo(ls, loc);
    RoleAccess(loc, u);
  }

  /** `handleLogout`: the session's user is cleared, then the browser goes
      to /login. */
  function HandleLogout(s: Session): (r: Session)
    ensures r.user.None?
    ensures Resolve(r.at) == Some(LoginLoc)
  {
    ResolvePathOf(LoginLoc);
    Session(None, PathOf(LoginLoc))
  }

  /** After logging out the login page is what the browser shows, and
      every guarded page now redirects to it. */
  lemma LogoutShowsLogin(s: Session, loc: Loc)
    requires WellFormed(loc) && !IsPublic(loc) && !loc.RootLoc?
    ensures Visit(HandleLogout(s).at, false, HandleLogout(s).user) == Show(LoginPage)
    ensures Visit(PathOf(loc), false, HandleLogout(s).user) == RedirectTo(HandleLogout(s).at)
  {
    VisitPath(LoginLoc, false, None);
    LoginRequired(loc);
    PublicPaths();
  }
}

=== FILE: project_details.dfy ===
/** The project page (`ProjectDetails.js`): the owner's and the data
    manager's permissions, the buttons they unlock, and what each job card
    shows for the job's status. */
module ProjectDetails {
  import opened Base
  import opened Records
  import opened Routes
  import Dashboard

  /** `isOwner`. */
  predicate IsOwner(project: Project, user: User)
  {
    project.ownerId == user.id
  }

  /** `canManageData`: every role but Technician, and a Technician listed
      as a member. */
  function CanManageData(project: Project, user: User): (b: bool)
    ensures b <==> user.role != Technician || user.id in project.members
    ensures user.role == Technician ==> (b <==> user.id in project.members)
  {
    user.role != Technician || Includes(project.members, user.id)
  }

  /** Everybody whose dashboard lists a project may manage its data. */
  lemma VisibleImpliesManage(project: Project, user: User)
    requires Dashboard.Sees(user, project)
    ensures CanManageData(project, user)
  {
  }

  /** The converse fails: a Researcher who is not a member manages the data
      of a project the dashboard does not list for them. */
  lemma ManageWithoutVisibility()
    ensures var u := User("r1", "R", "r@x", "pw", Researcher);
            var p := Project("p1", "P", "", "Active", "o1", ["o1"], "t", "t");
            CanManageData(p, u) && !Dashboard.Sees(u, p)
  {
    var u := User("r1", "R", "r@x", "pw", Researcher);
    var p := Project("p1", "P", "", "Active", "o1", ["o1"], "t", "t");
    assert !Includes(p.members, u.id);
  }

  /** The buttons of the project page. */
  datatype Button = ManageMembers | Delete | DataTab(to: Loc) | ManageData(to: Loc)

  /** The project page's buttons for `user`, in the order they are drawn:
      the owner's Manage Members and Delete, the Data & Analysis tab, and
      Manage Data when the user may manage data. Both navigation buttons
      lead to the project's data page. */
  function Buttons(id: Id, project: Project, user: User): (bs: seq<Button>)
    ensures ManageMembers in bs <==> IsOwner(project, user)
    ensures Delete in bs <==> IsOwner(project, user)
    ensures ManageData(ProjectDataLoc(id)) in bs <==> CanManageData(project, user)
    ensures DataTab(ProjectDataLoc(id)) in bs
    ensures forall i :: 0 <= i < |bs| && (bs[i].DataTab? || bs[i].ManageData?) ==> bs[i].to == ProjectDataLoc(id)
  {
    (if IsOwner(project, user) then [ManageMembers, Delete] else [])
    + [DataTab(ProjectDataLoc(id))]
    + (if CanManageData(project, user) then [ManageData(ProjectDataLoc(id))] else [])
  }

  /** Both data buttons lead to a page the route table shows any signed-in
      user: the data page is guarded by login only, so `canManageData`
      hides a button but does not protect the page. */
  lemma DataPageReachable(id: Id, project: Project, user: User, i: int)
    requires ValidParam(id)
    requires 0 <= i < |Buttons(id, project, user)|
    requires Buttons(id, project, user)[i].DataTab? || Buttons(id, project, user)[i].ManageData?
    ensures Visit(PathOf(Buttons(id, project, user)[i].to), false, Some(user)) == Show(DataManagementPage)
  {
    VisitPath(ProjectDataLoc(id), false, Some(user));
  }

  /** What a job card shows besides the status badge: a progress bar of
      the given width (in percent) and a link to the job's results. */
  datatype JobWidgets = JobWidgets(progressWidth: Option<real>, resultsLink: Option<Loc>)

  /** The job card: the progress bar only while "Processing", with width
      `progress`; View Results only when "Completed", to the job's results
      page. */
  function JobCard(job: Job): (w: JobWidgets)
    ensures w.progressWidth.Some? <==> job.status == "Processing"
    ensures w.progressWidth.Some? ==> w.progressWidth.value == job.progress
    ensures w.resultsLink.Some? <==> job.status == "Completed"
    ensures w.resultsLink.Some? ==> w.resultsLink.value == ResultsLoc(job.id)
  {
    JobWidgets(
      if job.status == "Processing" then Some(job.progress) else None,
      if job.status == "Completed" then Some(ResultsLoc(job.id)) else None)
  }

  /** A card never shows both a progress bar and a results link, and a
      results link leads to the results page for every signed-in user. */
  lemma JobCardLinks(job: Job, user: User)
    requires ValidParam(job.id)
    ensures !(JobCard(job).progressWidth.Some? && JobCard(job).resultsLink.Some?)
    ensures JobCard(job).resultsLink.Some? ==>
              Visit(PathOf(JobCard(job).resultsLink.value), false, Some(user)) == Show(ResultsPage)
  {
    VisitPath(ResultsLoc(job.id), false, Some(user));
  }
}

=== FILE: protected_route.dfy ===
/** The route guard (`ProtectedRoute`) and its role check (`checkRole`). */
module Access {
  import opened Base
  import opened Records

  /** The `requiredRole` prop: a single role name or an array of names. */
  datatype RequiredRole = Exactly(role: string) | AnyOf(roles: seq<string>)

  /** What the guard renders. */
  datatype Screen = Spinner | Redirect(to: string) | AccessDenied | Children

  /** JavaScript truthiness of the prop: an absent prop and the empty
      string are falsy, an array (even an empty one) is truthy. */
  predicate Demands(req: Option<RequiredRole>)
  {
    match req
    case None => false
    case Some(Exactly(r)) => r != ""
    case Some(AnyOf(_)) => true
  }

  /** `checkRole`: membership for an array, string equality otherwise. */
  function CheckRole(userRole: string, req: RequiredRole): (ok: bool)
    ensures req.AnyOf? ==> (ok <==> userRole in req.roles)
    ensures req.Exactly? ==> (ok <==> userRole == req.role)
    ensures req == AnyOf([]) ==> !ok
  {
    match req
    case AnyOf(roles) => Includes(roles, userRole)
    case Exactly(r) => userRole == r
  }

  /** Which users the guard lets through, stated without `checkRole`: no
      (or an empty-string) requirement admits everybody, a single name
      admits that role, a list admits the roles listed. */
  predicate Admits(u: User, req: Option<RequiredRole>)
  {
    match req
    case None => true
    case Some(Exactly(r)) => r == "" || u.role == r
    case Some(AnyOf(roles)) => exists i :: 0 <= i < |roles| && roles[i] == u.role
  }

  /** `ProtectedRoute`: the spinner while authentication is loading, a
      redirect to /login without a user, Access Denied for a user failing a
      demanded role, and the children otherwise. */
  function Guard(loading: bool, user: Option<User>, req: Option<RequiredRole>): (v: Screen)
    ensures loading ==> v == Spinner
    ensures !loading && user.None? ==> v == Redirect("/login")
    ensures !loading && user.Some? ==> v == Children || v == AccessDenied
    ensures v == Children <==> !loading && user.Some? && Admits(user.value, req)
    ensures !loading && user.Some? && req.None? ==> v == Children
  {
    if loading then Spinner
    else if user.None? then Redirect("/login")
    else if Demands(req) && !CheckRole(user.value.role, req.value) then AccessDenied
    else Children
  }
}

=== FILE: records.dfy ===
/** JSON bodies the client sends, and the records it reads back from the
    REST store (users, projects, datasets, analysis jobs, results, models,
    unclassified-pool entries). */
module Json {

  /** A JSON value as the client builds it. Numbers are `real`. An
      `undefined` value is not a JSON value: serialisation drops its key,
      so a possibly missing argument is an `Option<Value>`. */
  datatype Value = Null | Bool(b: bool) | Num(n: real) | Str(s: string) | Arr(items: seq<Value>)

  /** A JSON object: keys to values. Object spread `{...a, ...b}` is the
      map union `a + b`, in which the keys of `b` win. */
  type Obj = map<string, Value>

  /** JavaScript falsiness of the values that can occur here. */
  predicate Falsy(v: Value)
  {
    v == Null || v == Bool(false) || v == Num(0.0) || v == Str("")
  }
}

module Records {
  import opened Json

  /** Record identifiers, compared with `===` as strings. */
  type Id = string

  /** The three role names stored in a user's `role` field. */
  const Administrator: string := "Administrator"
  const Researcher: string := "Researcher"
  const Technician: string := "Technician"

  datatype User = User(id: Id, name: string, email: string, password: string, role: string)

  datatype Project = Project(
    id: Id, name: string, description: string, status: string,
    ownerId: Id, members: seq<Id>, createdAt: string, updatedAt: string)

  datatype Dataset = Dataset(id: Id, projectId: Id, sampleId: string, filename: string, status: string)

  datatype Job = Job(
    id: Id, datasetId: Id, projectId: Id, modelVersion: string,
    status: string, progress: real, submittedAt: string)

  /** One row of a result's `taxonomicData`. */
  datatype Taxon = Taxon(
    taxon: string, kingdom: string, phylum: string, taxonClass: string,
    order: string, family: string, genus: string, species: string,
    confidence: real, readCount: int)

  /** A stored analysis result; its biodiversity metrics and novel taxa are
      only displayed, so only the rows are modelled. */
  datatype AnalysisResult = AnalysisResult(jobId: Id, taxonomicData: seq<Taxon>)

  datatype Model = Model(
    id: Id, version: string, description: string,
    accuracy: real, precision: real, recall: real,
    trainedDate: string, isActive: bool)

  /** An entry of the unclassified pool. */
  datatype PoolEntry = PoolEntry(
    id: Id, sequenceId: string, readCount: int, confidence: real,
    closestMatch: string, similarity: real, sequence: string, status: string)
}

/** The modal forms the pages submit: the browser's `required` check on
    fields held in a JSON-like object, and a modal's state. */
module Forms {
  import opened Json

  /** The browser's `required` check on one field bound to `form[k]`: the
      field holds a non-empty string (an unbound field is empty). */
  predicate Filled(form: Obj, k: string)
  {
    k in form && form[k] != Str("")
  }

  /** Constraint validation of a form whose `required` inputs are bound to
      the keys `required`: the form reaches `onSubmit` only when every one
      of them is filled. */
  predicate AllFilled(form: Obj, required: seq<string>)
  {
    forall i :: 0 <= i < |required| ==> Filled(form, required[i])
  }

  /** A modal form: its contents and whether it is shown. */
  datatype Dialog = Dialog(form: Obj, open: bool)

  /** What submitting a modal does: the body sent to the store, and the
      dialog afterwards. */
  datatype Step = Step(body: Obj, dialog: Dialog)
}

=== FILE: register.dfy ===
/** The registration form (`Register.js`): its initial state, the role
    selector, and `handleSubmit`'s validation sequence and request. */
module Register {
  import opened Base
  import opened Json
  import opened Records
  import opened Text
  import Api
  import Routes

  const Mismatch: string := "Passwords do not match"
  const TooShort: string := "Password must be at least 6 characters long"
  const Failed: string := "Registration failed. Please try again."

  /** The form's fields. */
  datatype Form = Form(name: string, email: string, password: string, confirmPassword: string, role: string)

  /** The form as first shown: empty fields and the Technician role. */
  const InitialForm: Form := Form("", "", "", "", Technician)

  /** The roles the selector offers, in order. */
  const RoleOptions: seq<string> := [Technician, Researcher]

  /** The form starts blank, with the Technician role. */
  lemma InitialFormFacts()
    ensures InitialForm.name == "" && InitialForm.email == ""
    ensures InitialForm.password == "" && InitialForm.confirmPassword == ""
    ensures InitialForm.role == Technician
  {
  }

  /** Self-registration never offers the Administrator role, and the
      initial role is one of the options. */
  lemma RoleOptionsFacts()
    ensures Administrator !in RoleOptions
    ensures Technician in RoleOptions && Researcher in RoleOptions
    ensures InitialForm.role in RoleOptions
  {
  }

  /** The body sent to `authAPI.register`: every field but
      `confirmPassword`. */
  function RegisterBody(f: Form): (b: Obj)
    ensures b.Keys == {"name", "email", "password", "role"}
    ensures b["name"] == Str(f.name) && b["email"] == Str(f.email)
    ensures b["password"] == Str(f.password) && b["role"] == Str(f.role)
  {
    map["name" := Str(f.name), "email" := Str(f.email), "password" := Str(f.password), "role" := Str(f.role)]
  }

  /** The form's state after a submit: the error shown, the request sent
      (if any), and where the browser goes. */
  datatype Outcome = Outcome(error: string, sent: Option<Obj>, goTo: Option<Routes.Loc>)

  /** The form passes both checks. */
  predicate Valid(f: Form)
  {
    f.password == f.confirmPassword && Utf16Length(f.password) >= 6
  }

  /** The browser's constraint validation, which runs before `onSubmit`:
      every text field is `required`, and the email must also pass the
      `type="email"` syntax check (the `emailOk` argument, left abstract).
      A form that fails it is never submitted. */
  predicate Submittable(f: Form, emailOk: bool)
  {
    f.name != "" && f.email != "" && emailOk && f.password != "" && f.confirmPassword != ""
  }

  /** `handleSubmit`, or nothing when the browser blocks the form. The
      previous error is cleared first, so the outcome never depends on it;
      a mismatch is reported before the length (counted in UTF-16 units,
      as `.length` does); a valid form is sent, and the request's success
      decides between going to /login and the failure message. */
  function HandleSubmit(f: Form, emailOk: bool, requestOk: bool): (r: Option<Outcome>)
    ensures r.Some? <==> Submittable(f, emailOk)
    ensures r.Some? ==> (r.value.sent.Some? <==> Valid(f))
    ensures r.Some? && r.value.sent.Some? ==>
              r.value.sent.value == RegisterBody(f) && "confirmPassword" !in r.value.sent.value
    ensures r.Some? && f.password != f.confirmPassword ==> r.value == Outcome(Mismatch, None, None)
    ensures r.Some? && f.password == f.confirmPassword && Utf16Length(f.password) < 6 ==>
              r.value == Outcome(TooShort, None, None)
    ensures r.Some? && Valid(f) && requestOk ==> r.value.error == "" && r.value.goTo == Some(Routes.LoginLoc)
    ensures r.Some? && Valid(f) && !requestOk ==> r.value.error == Failed && r.value.goTo.None?
  {
    if !Submittable(f, emailOk) then None
    else if f.password != f.confirmPassword then Some(Outcome(Mismatch, None, None))
    else if Utf16Length(f.password) < 6 then Some(Outcome(TooShort, None, None))
    else if requestOk then Some(Outcome("", Some(RegisterBody(f)), Some(Routes.LoginLoc)))
    else Some(Outcome(Failed, Some(RegisterBody(f)), None))
  }

  /** A password of fewer than six characters from the Basic Multilingual
      Plane is never sent; three characters beyond it count as six units
      and pass the check. */
  lemma LengthCheckCountsUnits(f: Form, emailOk: bool, ok: bool)
    ensures |f.password| < 6 && (forall i :: 0 <= i < |f.password| ==> !Astral(f.password[i])) ==>
              HandleSubmit(f, emailOk, ok).None? || HandleSubmit(f, emailOk, ok).value.sent.None?
    ensures var g := f.(password := "\U{1F41F}\U{1F41F}\U{1F41F}", confirmPassword := "\U{1F41F}\U{1F41F}\U{1F41F}");
            f.name != "" && f.email != "" && emailOk ==> HandleSubmit(g, emailOk, ok).value.sent.Some?
  {
    if |f.password| < 6 && (forall i :: 0 <= i < |f.password| ==> !Astral(f.password[i])) {
      BmpLength(f.password);
    }
    var p := "\U{1F41F}\U{1F41F}\U{1F41F}";
    assert p[1..][1..][1..] == [];
    assert Utf16Length(p) == 6;
  }

  /** A user stored by self-registration from the selector's options is
      never an Administrator, so the Administrator pages deny them. */
  lemma RegisteredUserIsNotAdministrator(f: Form, now: string, u: User)
    requires f.role in RoleOptions && Submittable(f, true) && Valid(f)
    requires Str(u.role) == Api.UserCreateBody(HandleSubmit(f, true, true).value.sent.value, now)["role"]
    ensures u.role != Administrator
    ensures Routes.Visit(Routes.PathOf(Routes.AdminUsersLoc), false, Some(u)) == Routes.Denied
  {
    Routes.RoleAccess(Routes.AdminUsersLoc, u);
  }
}

=== FILE: results.dfy ===
/** The results page (`ResultsDashboard.js`): which view it shows, the
    table search, the chart series it derives from the result rows (top
    abundance, reads per phylum, confidence scatter), the confidence badge
    tiers and the CSV export. */
module Results {
  import opened Base
  import opened Records
  import opened Text
  import Api

  // ----------------------------------------------------------------- view

  /** The three shapes of the page. */
  datatype View = LoadingView | NoResultsView | ResultsView(result: AnalysisResult)

  /** The spinner while loading; then the "No Results Found" card when the
      store had no result for the job; the result otherwise. */
  function PageView(loading: bool, fetched: Option<AnalysisResult>): (v: View)
    ensures loading ==> v == LoadingView
    ensures !loading && fetched.None? ==> v == NoResultsView
    ensures !loading && fetched.Some? ==> v == ResultsView(fetched.value)
  {
    if loading then LoadingView
    else if fetched.None? then NoResultsView
    else ResultsView(fetched.value)
  }

  /** Once loaded, the page shows a result exactly when the store holds one
      for the job, and then it is a result of that job. */
  lemma PageViewForJob(results: seq<AnalysisResult>, jobId: Id)
    ensures (PageView(false, Api.ResultForJob(results, jobId)) == NoResultsView)
              <==> (forall i :: 0 <= i < |results| ==> results[i].jobId != jobId)
    ensures PageView(false, Api.ResultForJob(results, jobId)).ResultsView? ==>
              PageView(false, Api.ResultForJob(results, jobId)).result.jobId == jobId
  {
  }

  // --------------------------------------------------------------- search

  /** A row matches the search term: its lower-cased taxon contains the
      lower-cased term. */
  predicate MatchesTerm(t: Taxon, term: string)
  {
    Occurs(ToLower(term), ToLower(t.taxon))
  }

  /** `filteredTaxonomicData`: the matching rows in their original order. */
  function Search(rows: seq<Taxon>, term: string): (r: seq<Taxon>)
    ensures IsSubsequence(r, rows)
    ensures forall t :: t in r <==> t in rows && MatchesTerm(t, term)
    ensures forall t :: multiset(r)[t] == if MatchesTerm(t, term) then multiset(rows)[t] else 0
  {
    var r := Filter(rows, (t: Taxon) => Contains(ToLower(t.taxon), ToLower(term)));
    assert forall t :: t in r <==> multiset(r)[t] > 0;
    r
  }

  /** With an empty search box every row is shown. */
  lemma EmptySearchKeepsAll(rows: seq<Taxon>)
    ensures Search(rows, "") == rows
  {
    forall j | 0 <= j < |rows| ensures Contains(ToLower(rows[j].taxon), ToLower("")) {
      EmptyOccursEverywhere(ToLower(rows[j].taxon));
    }
    FilterEverything(rows, (t: Taxon) => Contains(ToLower(t.taxon), ToLower("")));
  }

  /** Lower-casing is idempotent. */
  lemma ToLowerTwice(s: string)
    ensures ToLower(ToLower(s)) == ToLower(s)
  {
    var once := ToLower(s);
    assert forall i :: 0 <= i < |once| ==> LowerChar(once[i]) == once[i];
  }

  /** The search ignores the case of the term: it shows the same rows, in
      the same order, as the lower-cased term. */
  lemma SearchIgnoresCase(rows: seq<Taxon>, term: string)
    ensures Search(rows, term) == Search(rows, ToLower(term))
  {
    ToLowerTwice(term);
    FilterAgrees(rows, (t: Taxon) => Contains(ToLower(t.taxon), ToLower(term)),
                 (t: Taxon) => Contains(ToLower(t.taxon), ToLower(ToLower(term))));
  }

  // ------------------------------------------------------------ abundance

  /** One bar of the abundance chart. */
  datatype Bar = Bar(name: string, readCount: int)

  /** A row's display name on the abundance chart: species, else genus,
      else family (an empty string counting as missing). */
  function AbundanceName(t: Taxon): (name: string)
    ensures t.species != "" ==> name == t.species
    ensures t.species == "" && t.genus != "" ==> name == t.genus
    ensures t.species == "" && t.genus == "" ==> name == t.family
  {
    OrElse(OrElse(t.species, t.genus), t.family)
  }

  function Min(a: int, b: int): int
  {
    if a <= b then a else b
  }

  /** `abundanceData`: the first ten rows (all of them when fewer), in
      order, as bars. */
  function Abundance(rows: seq<Taxon>): (bars: seq<Bar>)
    ensures |bars| == Min(10, |rows|)
    ensures forall i :: 0 <= i < |bars| ==> bars[i] == Bar(AbundanceName(rows[i]), rows[i].readCount)
  {
    var n := Min(10, |rows|);
    seq(n, i requires 0 <= i < n => Bar(AbundanceName(rows[i]), rows[i].readCount))
  }

  /** The abundance chart ignores everything after the tenth row. */
  lemma AbundanceIgnoresTail(rows: seq<Taxon>, more: seq<Taxon>)
    requires |rows| >= 10
    ensures Abundance(rows + more) == Abundance(rows)
  {
    var a, b := Abundance(rows + more), Abundance(rows);
    assert forall i :: 0 <= i < 10 ==> (rows + more)[i] == rows[i];
    assert |a| == |b| == 10;
  }

  // --------------------------------------------------------------- phyla

  /** One slice of the phylum chart. */
  datatype Slice = Slice(name: string, value: int)

  /** The names of the slices, in order. */
  function Names(acc: seq<Slice>): (ns: seq<string>)
    ensures |ns| == |acc|
    ensures forall i :: 0 <= i < |acc| ==> ns[i] == acc[i].name
  {
    seq(|acc|, i requires 0 <= i < |acc| => acc[i].name)
  }

  predicate Distinct(ns: seq<string>)
  {
    forall i, j :: 0 <= i < j < |ns| ==> ns[i] != ns[j]
  }

  /** The sum of the slices' values. */
  function SumValues(acc: seq<Slice>): int
  {
    if |acc| == 0 then 0 else SumValues(acc[..|acc| - 1]) + acc[|acc| - 1].value
  }

  /** One step of the `reduce`: add the row's reads to the first slice
      named after its phylum, or push a new slice for it. */
  function AddRow(acc: seq<Slice>, t: Taxon): (r: seq<Slice>)
    ensures t.phylum in Names(acc) ==> Names(r) == Names(acc)
    ensures t.phylum !in Names(acc) ==> Names(r) == Names(acc) + [t.phylum] && r[|acc|].value == t.readCount
    ensures Distinct(Names(acc)) ==>
              forall i :: 0 <= i < |acc| ==>
                r[i].value == acc[i].value + (if acc[i].name == t.phylum then t.readCount else 0)
  {
    match FindFirst(acc, (s: Slice) => s.name == t.phylum)
    case Some(k) =>
      var r := acc[k := acc[k].(value := acc[k].value + t.readCount)];
      assert Names(r) == Names(acc);
      r
    case None =>
      var r := acc + [Slice(t.phylum, t.readCount)];
      assert Names(r) == Names(acc) + [t.phylum];
      r
  }

  /** `phylumData`: the rows folded from the left into slices. */
  function PhylumData(rows: seq<Taxon>): seq<Slice>
  {
    if |rows| == 0 then [] else AddRow(PhylumData(rows[..|rows| - 1]), rows[|rows| - 1])
  }

  /** Reference definition: the distinct phyla of the rows, in order of
      first appearance. */
  function Phyla(rows: seq<Taxon>): seq<string>
  {
    if |rows| == 0 then []
    else
      var before := Phyla(rows[..|rows| - 1]);
      var p := rows[|rows| - 1].phylum;
      if p in before then before else before + [p]
  }

  /** Reference definition: the reads of the rows of phylum `p`. */
  function ReadsOf(rows: seq<Taxon>, p: string): int
  {
    if |rows| == 0 then 0
    else ReadsOf(rows[..|rows| - 1], p) + (if rows[|rows| - 1].phylum == p then rows[|rows| - 1].readCount else 0)
  }

  /** Reference definition: the reads of all rows. */
  function TotalReads(rows: seq<Taxon>): int
  {
    if |rows| == 0 then 0 else TotalReads(rows[..|rows| - 1]) + rows[|rows| - 1].readCount
  }

  /** The phyla are distinct and are exactly the phyla of the rows. */
  lemma {:induction false} PhylaFacts(rows: seq<Taxon>)
    ensures Distinct(Phyla(rows))
    ensures forall p :: p in Phyla(rows) <==> exists i :: 0 <= i < |rows| && rows[i].phylum == p
    decreases |rows|
  {
    if |rows| > 0 {
      var init := rows[..|rows| - 1];
      PhylaFacts(init);
      forall p
        ensures p in Phyla(rows) <==> exists i :: 0 <= i < |rows| && rows[i].phylum == p
      {
        if p in Phyla(rows) && p != rows[|rows| - 1].phylum {
          var i :| 0 <= i < |init| && init[i].phylum == p;
          assert rows[i].phylum == p;
        }
        if exists i :: 0 <= i < |rows| && rows[i].phylum == p {
          var i :| 0 <= i < |rows| && rows[i].phylum == p;
          if i < |init| {
            assert init[i].phylum == p;
          }
        }
      }
    }
  }

  /** A phylum absent from the rows has no reads. */
  lemma {:induction false} ReadsOfAbsent(rows: seq<Taxon>, p: string)
    requires forall i :: 0 <= i < |rows| ==> rows[i].phylum != p
    ensures ReadsOf(rows, p) == 0
    decreases |rows|
  {
    if |rows| > 0 {
      ReadsOfAbsent(rows[..|rows| - 1], p);
    }
  }

  /** The phylum chart has one slice per distinct phylum, in order of first
      appearance, and each slice's value is the reads of that phylum. */
  lemma {:induction false} PhylumDataSpec(rows: seq<Taxon>)
    ensures Names(PhylumData(rows)) == Phyla(rows)
    ensures forall i :: 0 <= i < |PhylumData(rows)| ==>
              PhylumData(rows)[i].value == ReadsOf(rows, PhylumData(rows)[i].name)
    decreases |rows|
  {
    if |rows| > 0 {
      var init := rows[..|rows| - 1];
      var t := rows[|rows| - 1];
      PhylumDataSpec(init);
      var acc := PhylumData(init);
      assert Distinct(Names(acc)) by { PhylaFacts(init); }
      assert PhylumData(rows) == AddRow(acc, t);
      if t.phylum !in Names(acc) {
        AbsentPhylum(init, t.phylum);
      }
    }
  }

  /** A phylum outside the rows' phyla has no reads. */
  lemma AbsentPhylum(rows: seq<Taxon>, p: string)
    requires p !in Phyla(rows)
    ensures ReadsOf(rows, p) == 0
  {
    PhylaFacts(rows);
    forall i | 0 <= i < |rows|
      ensures rows[i].phylum != p
    {
      assert exists j :: 0 <= j < |rows| && rows[j].phylum == rows[i].phylum;
    }
    ReadsOfAbsent(rows, p);
  }

  /** A slice update adds its increment to the sum. */
  lemma {:induction false} SumValuesUpdate(acc: seq<Slice>, k: int, x: int)
    requires 0 <= k < |acc|
    ensures SumValues(acc[k := acc[k].(value := acc[k].value + x)]) == SumValues(acc) + x
    decreases |acc|
  {
    var r := acc[k := acc[k].(value := acc[k].value + x)];
    assert r[..|r| - 1] == if k == |acc| - 1 then acc[..|acc| - 1]
                           else acc[..|acc| - 1][k := acc[k].(value := acc[k].value + x)];
    if k < |acc| - 1 {
      SumValuesUpdate(acc[..|acc| - 1], k, x);
    }
  }

  /** A step of the fold adds the row's reads to the total. */
  lemma AddRowSum(acc: seq<Slice>, t: Taxon)
    ensures SumValues(AddRow(acc, t)) == SumValues(acc) + t.readCount
  {
    match FindFirst(acc, (s: Slice) => s.name == t.phylum)
    case Some(k) =>
      SumValuesUpdate(acc, k, t.readCount);
    case None =>
      var r := acc + [Slice(t.phylum, t.readCount)];
      assert r[..|r| - 1] == acc;
  }

  /** The slices of the phylum chart add up to the reads of all rows. */
  lemma {:induction false} PhylumDataTotal(rows: seq<Taxon>)
    ensures SumValues(PhylumData(rows)) == TotalReads(rows)
    decreases |rows|
  {
    if |rows| > 0 {
      PhylumDataTotal(rows[..|rows| - 1]);
      AddRowSum(PhylumData(rows[..|rows| - 1]), rows[|rows| - 1]);
    }
  }

  // ---------------------------------------------------------- confidence

  /** One point of the confidence scatter. */
  datatype Point = Point(index: int, confidence: real, readCount: int, name: string)

  /** `confidenceData`: one point per row, numbered from 1, named by
      species, else genus. */
  function ConfidenceData(rows: seq<Taxon>): (ps: seq<Point>)
    ensures |ps| == |rows|
    ensures forall i :: 0 <= i < |rows| ==>
              ps[i].index == i + 1 && ps[i].confidence == rows[i].confidence &&
              ps[i].readCount == rows[i].readCount && ps[i].name == OrElse(rows[i].species, rows[i].genus)
  {
    seq(|rows|, i requires 0 <= i < |rows| =>
      Point(i + 1, rows[i].confidence, rows[i].readCount, OrElse(rows[i].species, rows[i].genus)))
  }

  /** The scatter's indices are 1, 2, ..., n: increasing, so no two points
      share an index. */
  lemma ConfidenceIndices(rows: seq<Taxon>)
    ensures forall i, j :: 0 <= i < j < |rows| ==> ConfidenceData(rows)[i].index < ConfidenceData(rows)[j].index
    ensures forall i :: 0 <= i < |rows| ==> 1 <= ConfidenceData(rows)[i].index <= |rows|
  {
  }

  /** The reads of the scatter's points, summed. */
  function PointReads(ps: seq<Point>): int
  {
    if |ps| == 0 then 0 else PointReads(ps[..|ps| - 1]) + ps[|ps| - 1].readCount
  }

  /** The three charts show the same rows: the scatter's points carry, in
      total, the reads the phylum chart divides up, and each of the first
      ten points has the read count of its abundance bar, and its name
      whenever the row names a species or a genus. */
  lemma ChartsAgree(rows: seq<Taxon>)
    ensures PointReads(ConfidenceData(rows)) == TotalReads(rows) == SumValues(PhylumData(rows))
    ensures forall i :: 0 <= i < |Abundance(rows)| ==>
              Abundance(rows)[i].readCount == ConfidenceData(rows)[i].readCount &&
              (rows[i].species != "" || rows[i].genus != "" ==>
                 Abundance(rows)[i].name == ConfidenceData(rows)[i].name)
  {
    PhylumDataTotal(rows);
    ScatterReads(rows);
  }

  /** The scatter's points carry the reads of all rows. */
  lemma {:induction false} ScatterReads(rows: seq<Taxon>)
    ensures PointReads(ConfidenceData(rows)) == TotalReads(rows)
    decreases |rows|
  {
    if |rows| > 0 {
      var init := rows[..|rows| - 1];
      ScatterReads(init);
      assert ConfidenceData(rows)[..|rows| - 1] == ConfidenceData(init);
    }
  }

  // ---------------------------------------------------------------- tiers

  datatype Tier = Low | Medium | High

  /** The confidence badge: high from 0.8, medium from 0.6, low below. */
  function ConfidenceTier(c: real): (t: Tier)
    ensures t == High <==> c >= 0.8
    ensures t == Medium <==> 0.6 <= c < 0.8
    ensures t == Low <==> c < 0.6
  {
    if c >= 0.8 then High else if c >= 0.6 then Medium else Low
  }

  function Rank(t: Tier): nat
  {
    match t
    case Low => 0
    case Medium => 1
    case High => 2
  }

  /** A higher confidence never gets a lower badge. */
  lemma TierMonotone(c1: real, c2: real)
    requires c1 <= c2
    ensures Rank(ConfidenceTier(c1)) <= Rank(ConfidenceTier(c2))
  {
  }

  /** The badge's CSS class. */
  function TierClass(t: Tier): string
  {
    match t
    case High => "high"
    case Medium => "medium"
    case Low => "low"
  }

  // ------------------------------------------------------------------ CSV

  /** The header line's ten column names. */
  const Header: seq<string> :=
    ["Taxon", "Kingdom", "Phylum", "Class", "Order", "Family", "Genus", "Species", "Confidence", "Read Count"]

  /** A row's ten fields as `join` writes them. `showReal` is JavaScript's
      number-to-string conversion for the confidence, left abstract. */
  function Fields(t: Taxon, showReal: real -> string): (fs: seq<string>)
    ensures |fs| == |Header|
  {
    [t.taxon, t.kingdom, t.phylum, t.taxonClass, t.order, t.family, t.genus, t.species,
     showReal(t.confidence), IntToString(t.readCount)]
  }

  /** A row's CSV line: its fields joined by ',' with no quoting. */
  function CsvLine(t: Taxon, showReal: real -> string): string
  {
    Join(Fields(t, showReal), ",")
  }

  /** The lines of the export: the header, then one line per row. */
  function CsvLines(rows: seq<Taxon>, showReal: real -> string): (ls: seq<string>)
    ensures |ls| == |rows| + 1
    ensures ls[0] == Join(Header, ",")
    ensures forall i :: 0 <= i < |rows| ==> ls[i + 1] == CsvLine(rows[i], showReal)
  {
    var lines := seq(|rows|, i requires 0 <= i < |rows| => CsvLine(rows[i], showReal));
    var ls := [Join(Header, ",")] + lines;
    assert forall i :: 0 <= i < |rows| ==> ls[i + 1] == lines[i];
    ls
  }

  /** The exported text: the lines joined by newlines. */
  function Csv(rows: seq<Taxon>, showReal: real -> string): string
  {
    Join(CsvLines(rows, showReal), "\n")
  }

  /** No field of the row contains `c`. */
  predicate FieldsAvoid(t: Taxon, showReal: real -> string, c: char)
  {
    forall k :: 0 <= k < |Header| ==> c !in Fields(t, showReal)[k]
  }

  /** The header line has no newline and splits back into the ten column
      names. */
  lemma HeaderRoundTrip()
    ensures '\n' !in Join(Header, ",")
    ensures Split(Join(Header, ","), ',') == Header
  {
    assert forall k :: 0 <= k < |Header| ==> '\n' !in Header[k] && ',' !in Header[k];
    JoinAvoids(Header, ",", '\n');
    SplitJoin(Header, ',');
  }

  /** A row line whose fields avoid ',' and '\n' has no newline and splits
      back into the row's fields. */
  lemma LineRoundTrip(t: Taxon, showReal: real -> string)
    requires FieldsAvoid(t, showReal, ',') && FieldsAvoid(t, showReal, '\n')
    ensures '\n' !in CsvLine(t, showReal)
    ensures Split(CsvLine(t, showReal), ',') == Fields(t, showReal)
  {
    JoinAvoids(Fields(t, showReal), ",", '\n');
    SplitJoin(Fields(t, showReal), ',');
  }

  /** When no field holds ',' or a newline, the export reads back: it has
      the header line and one line per row, and each line splits into that
      row's ten fields. */
  lemma CsvRoundTrip(rows: seq<Taxon>, showReal: real -> string)
    requires forall i :: 0 <= i < |rows| ==> FieldsAvoid(rows[i], showReal, ',') && FieldsAvoid(rows[i], showReal, '\n')
    ensures Split(Csv(rows, showReal), '\n') == CsvLines(rows, showReal)
    ensures Split(CsvLines(rows, showReal)[0], ',') == Header
    ensures forall i :: 0 <= i < |rows| ==>
              Split(CsvLines(rows, showReal)[i + 1], ',') == Fields(rows[i], showReal)
  {
    HeaderRoundTrip();
    RowLinesRoundTrip(rows, showReal);
    LinesAvoidNewline(rows, showReal);
    SplitJoin(CsvLines(rows, showReal), '\n');
  }

  /** Each row line has no newline and splits back into its row's fields. */
  lemma RowLinesRoundTrip(rows: seq<Taxon>, showReal: real -> string)
    requires forall i :: 0 <= i < |rows| ==> FieldsAvoid(rows[i], showReal, ',') && FieldsAvoid(rows[i], showReal, '\n')
    ensures forall i :: 0 <= i < |rows| ==>
              '\n' !in CsvLine(rows[i], showReal) && Split(CsvLine(rows[i], showReal), ',') == Fields(rows[i], showReal)
  {
    forall i | 0 <= i < |rows| {
      LineRoundTrip(rows[i], showReal);
    }
  }

  /** No line of the export holds a newline. */
  lemma LinesAvoidNewline(rows: seq<Taxon>, showReal: real -> string)
    requires forall i :: 0 <= i < |rows| ==> FieldsAvoid(rows[i], showReal, ',') && FieldsAvoid(rows[i], showReal, '\n')
    ensures forall j :: 0 <= j < |CsvLines(rows, showReal)| ==> '\n' !in CsvLines(rows, showReal)[j]
  {
    var ls := CsvLines(rows, showReal);
    RowLinesRoundTrip(rows, showReal);
    forall j | 0 <= j < |ls|
      ensures '\n' !in ls[j]
    {
      if j == 0 {
        HeaderRoundTrip();
      } else {
        assert ls[j] == ls[(j - 1) + 1];
      }
    }
  }

  /** Without quoting, a comma inside the taxon name shifts the columns:
      the first column read back is only the part before the comma. */
  lemma CommaShiftsColumns(t: Taxon, showReal: real -> string, a: string, b: string)
    requires t.taxon == a + "," + b && ',' !in a
    ensures Split(CsvLine(t, showReal), ',')[0] == a
    ensures Split(CsvLine(t, showReal), ',')[0] != t.taxon
  {
    var fs := Fields(t, showReal);
    var rest := "," + b + "," + Join(fs[1..], ",");
    assert CsvLine(t, showReal) == a + rest;
    SplitPrefix(a, rest, ',');
    assert rest[0] == ',';
    assert Split(rest, ',')[0] == "";
    assert |t.taxon| > |a|;
  }
}

=== FILE: text.dfy ===
/** The string operations the client uses: `toLowerCase` (ASCII letters
    only), `includes` on strings, `replace` with a one-character pattern,
    `Array.prototype.join`, the `||` default between strings, `.length`
    in UTF-16 code units, and integer-to-text conversion. `Split` is the
    inverse of `Join` and is what the router uses to cut a path into
    segments. */
module Text {
  import opened Base

  /** ASCII lower-casing of one character. */
  function LowerChar(c: char): char
  {
    if 'A' <= c <= 'Z' then (c as int + 32) as char else c
  }

  /** `s.toLowerCase()`, restricted to ASCII letters. */
  function ToLower(s: string): (r: string)
    ensures |r| == |s|
    ensures forall i :: 0 <= i < |s| ==> r[i] == LowerChar(s[i])
    ensures forall i :: 0 <= i < |r| ==> !('A' <= r[i] <= 'Z')
  {
    if |s| == 0 then "" else [LowerChar(s[0])] + ToLower(s[1..])
  }

  /** `needle` occurs in `hay` starting at index `i`. */
  predicate OccursAt(needle: string, hay: string, i: nat)
  {
    i + |needle| <= |hay| && hay[i..i + |needle|] == needle
  }

  /** `needle` occurs somewhere in `hay`. */
  predicate Occurs(needle: string, hay: string)
  {
    exists i: nat :: i <= |hay| && OccursAt(needle, hay, i)
  }

  /** `hay.includes(needle)`: try every starting position from the left. */
  function Contains(hay: string, needle: string): (b: bool)
    ensures b <==> Occurs(needle, hay)
    decreases |hay|
  {
    if needle <= hay then
      assert OccursAt(needle, hay, 0);
      true
    else if |hay| == 0 then
      assert forall i: nat :: !OccursAt(needle, hay, i);
      false
    else
      var b := Contains(hay[1..], needle);
      ShiftOccurrence(needle, hay);
      b
  }

  /** When `needle` is not a prefix of a non-empty `hay`, it occurs in
      `hay` exactly when it occurs in `hay[1..]`. */
  lemma ShiftOccurrence(needle: string, hay: string)
    requires |hay| > 0 && !(needle <= hay)
    ensures Occurs(needle, hay) <==> Occurs(needle, hay[1..])
  {
    if Occurs(needle, hay) {
      var i: nat :| i <= |hay| && OccursAt(needle, hay, i);
      assert i + |needle| <= |hay|;
      if i == 0 {
        assert false;
      }
      assert hay[1..][i - 1..i - 1 + |needle|] == hay[i..i + |needle|];
      assert OccursAt(needle, hay[1..], i - 1);
    }
    if Occurs(needle, hay[1..]) {
      var i: nat :| i <= |hay[1..]| && OccursAt(needle, hay[1..], i);
      assert i + |needle| <= |hay| - 1;
      assert hay[1..][i..i + |needle|] == hay[i + 1..i + 1 + |needle|];
      assert OccursAt(needle, hay, i + 1);
    }
  }

  /** The empty string occurs in every string, so `includes('')` is true. */
  lemma EmptyOccursEverywhere(hay: string)
    ensures Occurs("", hay)
  {
    assert OccursAt("", hay, 0);
  }

  /** `a || b` for two strings: `a` unless it is the empty (falsy) string. */
  function OrElse(a: string, b: string): string
  {
    if a != "" then a else b
  }

  /** `s.replace(from, to)` with one-character strings: only the FIRST
      occurrence of `from` is replaced. */
  function ReplaceFirst(s: string, from: char, to: char): (r: string)
    ensures |r| == |s|
    ensures forall i :: 0 <= i < |s| && s[i] != from ==> r[i] == s[i]
    ensures forall i :: 0 <= i < |s| && s[i] == from ==>
              r[i] == (if forall j :: 0 <= j < i ==> s[j] != from then to else from)
  {
    match FindFirst(s, c => c == from)
    case None => s
    case Some(i) => s[i := to]
  }

  /** Lower-casing works character by character, so it distributes over
      concatenation. */
  lemma ToLowerConcat(x: string, y: string)
    ensures ToLower(x + y) == ToLower(x) + ToLower(y)
  {
    var l, r := ToLower(x + y), ToLower(x) + ToLower(y);
    forall i | 0 <= i < |x + y|
      ensures l[i] == r[i]
    {
      if i < |x| {
        assert (x + y)[i] == x[i];
      } else {
        assert (x + y)[i] == y[i - |x|];
      }
    }
  }

  /** `replace` hits the first occurrence: the one after a prefix free of
      the pattern. */
  lemma ReplaceFirstAt(a: string, b: string, from: char, to: char)
    requires from !in a
    ensures ReplaceFirst(a + [from] + b, from, to) == a + [to] + b
  {
    var s := a + [from] + b;
    var r := ReplaceFirst(s, from, to);
    forall i | 0 <= i < |s|
      ensures r[i] == (a + [to] + b)[i]
    {
      if i < |a| {
        assert s[i] == a[i];
      } else if i == |a| {
        assert forall j :: 0 <= j < i ==> s[j] == a[j];
      } else {
        assert s[|a|] == from;
        assert s[i] == b[i - |a| - 1];
      }
    }
  }

  /** `parts.join(sep)`. */
  function Join(parts: seq<string>, sep: string): string
  {
    if |parts| == 0 then ""
    else if |parts| == 1 then parts[0]
    else parts[0] + sep + Join(parts[1..], sep)
  }

  /** `s.split(c)` for a one-character separator: the pieces between
      occurrences of `c`; there is always at least one piece. */
  function Split(s: string, c: char): (r: seq<string>)
    ensures |r| >= 1
    ensures forall i :: 0 <= i < |r| ==> c !in r[i]
    decreases |s|
  {
    if |s| == 0 then [""]
    else
      var rest := Split(s[1..], c);
      if s[0] == c then [""] + rest else [[s[0]] + rest[0]] + rest[1..]
  }

  /** A prefix free of the separator glues onto the first piece. */
  lemma {:induction false} SplitPrefix(p: string, s: string, c: char)
    requires c !in p
    ensures Split(p + s, c) == [p + Split(s, c)[0]] + Split(s, c)[1..]
    decreases |p|
  {
    if |p| == 0 {
      var r := Split(s, c);
      assert p + s == s;
      assert p + r[0] == r[0];
      assert r == [r[0]] + r[1..];
    } else {
      var t := p + s;
      assert t[0] == p[0] && t[0] != c;
      assert t[1..] == p[1..] + s;
      SplitPrefix(p[1..], s, c);
      var rest := Split(t[1..], c);
      assert rest == [p[1..] + Split(s, c)[0]] + Split(s, c)[1..];
      assert Split(t, c) == [[t[0]] + rest[0]] + rest[1..];
      assert [p[0]] + (p[1..] + Split(s, c)[0]) == p + Split(s, c)[0];
    }
  }

  /** Splitting a joined list of separator-free pieces gives the pieces
      back. */
  lemma {:induction false} SplitJoin(parts: seq<string>, c: char)
    requires |parts| >= 1
    requires forall i :: 0 <= i < |parts| ==> c !in parts[i]
    ensures Split(Join(parts, [c]), c) == parts
    decreases |parts|
  {
    if |parts| == 1 {
      SplitPrefix(parts[0], "", c);
      assert parts[0] + "" == parts[0];
    } else {
      var rest := Join(parts[1..], [c]);
      SplitJoin(parts[1..], c);
      assert Join(parts, [c]) == parts[0] + ([c] + rest);
      SplitPrefix(parts[0], [c] + rest, c);
      var tail := [c] + rest;
      assert tail[0] == c && tail[1..] == rest;
      assert Split(tail, c) == [""] + Split(rest, c);
      assert Split(tail, c)[0] == "" && Split(tail, c)[1..] == parts[1..];
      assert parts[0] + "" == parts[0];
      assert parts == [parts[0]] + parts[1..];
    }
  }

  /** Joining the pieces of a split with the separator gives the string
      back. */
  lemma {:induction false} JoinSplit(s: string, c: char)
    ensures Join(Split(s, c), [c]) == s
    decreases |s|
  {
    if |s| > 0 {
      var rest := Split(s[1..], c);
      JoinSplit(s[1..], c);
      if s[0] == c {
        assert Join([""] + rest, [c]) == "" + [c] + Join(rest, [c]);
      } else if |rest| == 1 {
        assert Split(s, c) == [[s[0]] + rest[0]];
      } else {
        var parts := Split(s, c);
        assert parts == [[s[0]] + rest[0]] + rest[1..];
        assert parts[1..] == rest[1..];
        assert Join(rest, [c]) == rest[0] + [c] + Join(rest[1..], [c]);
        assert Join(parts, [c]) == ([s[0]] + rest[0]) + [c] + Join(rest[1..], [c]);
      }
      assert s == [s[0]] + s[1..];
    }
  }

  /** Joining pieces that avoid a character, with a separator that avoids
      it too, gives a string that avoids it. */
  lemma {:induction false} JoinAvoids(parts: seq<string>, sep: string, c: char)
    requires c !in sep
    requires forall i :: 0 <= i < |parts| ==> c !in parts[i]
    ensures c !in Join(parts, sep)
    decreases |parts|
  {
    if |parts| > 1 {
      JoinAvoids(parts[1..], sep, c);
    }
  }

  /** The decimal digit character for `d`. */
  function Digit(d: nat): char
    requires d < 10
  {
    "0123456789"[d]
  }

  /** `String(n)` for a non-negative integer: its decimal digits. */
  function NatToString(n: nat): (s: string)
    ensures |s| >= 1
    ensures forall i :: 0 <= i < |s| ==> '0' <= s[i] <= '9'
    decreases n
  {
    if n < 10 then [Digit(n)] else NatToString(n / 10) + [Digit(n % 10)]
  }

  /** `String(n)` for an integer: a minus sign, then the decimal digits. */
  function IntToString(n: int): (s: string)
    ensures |s| >= 1
    ensures forall i :: 0 <= i < |s| ==> s[i] == '-' || '0' <= s[i] <= '9'
  {
    if n < 0 then "-" + NatToString(-n) else NatToString(n)
  }

  /** A character outside the Basic Multilingual Plane, which UTF-16
      writes as a surrogate pair. */
  predicate Astral(c: char)
  {
    c as int >= 0x1_0000
  }

  /** `s.length`: JavaScript counts UTF-16 code units, one per character
      and one more for each character outside the Basic Multilingual
      Plane. */
  function Utf16Length(s: string): (n: nat)
    ensures n == |s| + Count(s, Astral)
    ensures |s| <= n <= 2 * |s|
  {
    if |s| == 0 then 0
    else
      assert Filter(s, Astral) == (if Astral(s[0]) then [s[0]] else []) + Filter(s[1..], Astral);
      (if Astral(s[0]) then 2 else 1) + Utf16Length(s[1..])
  }

  /** Inside the Basic Multilingual Plane the UTF-16 length is the number
      of characters. */
  lemma BmpLength(s: string)
    requires forall i :: 0 <= i < |s| ==> !Astral(s[i])
    ensures Utf16Length(s) == |s|
  {
    CountNothing(s, Astral);
  }
}

=== FILE: unclassified_pool.dfy ===
/** The review page of the unclassified pool (`UnclassifiedPool.js`): the
    approve and reject patches, when each action is available, the status
    counts, the status badge's CSS class, and the review dialog's state. */
module UnclassifiedPool {
  import opened Base
  import opened Json
  import opened Records
  import opened Text
  import Api

  const PendingReview: string := "Pending Review"
  const Approved: string := "Approved"
  const Rejected: string := "Rejected"

  /** `handleApprove`'s patch: "Approved", the reviewer, the review time
      and the annotation as the only element of `annotations`. */
  function ApprovePatch(reviewer: User, annotation: string, now: string): (p: Obj)
    ensures p.Keys == {"status", "reviewedBy", "reviewDate", "annotations"}
    ensures p["status"] == Str(Approved) && p["reviewedBy"] == Str(reviewer.id)
    ensures p["reviewDate"] == Str(now) && p["annotations"] == Arr([Str(annotation)])
  {
    map["status" := Str(Approved), "reviewedBy" := Str(reviewer.id),
        "reviewDate" := Str(now), "annotations" := Arr([Str(annotation)])]
  }

  /** `handleReject`'s patch: "Rejected", the reviewer and the review time;
      no annotations. */
  function RejectPatch(reviewer: User, now: string): (p: Obj)
    ensures p.Keys == {"status", "reviewedBy", "reviewDate"}
    ensures p["status"] == Str(Rejected) && p["reviewedBy"] == Str(reviewer.id) && p["reviewDate"] == Str(now)
  {
    map["status" := Str(Rejected), "reviewedBy" := Str(reviewer.id), "reviewDate" := Str(now)]
  }

  /** Rejecting leaves whatever annotations the entry had; approving
      replaces them with the one annotation. Either way the entry records
      who reviewed it and when. */
  lemma ReviewMerges(entry: Obj, reviewer: User, annotation: string, now: string)
    ensures var a := Api.Merge(entry, ApprovePatch(reviewer, annotation, now));
            a["annotations"] == Arr([Str(annotation)]) && a["reviewedBy"] == Str(reviewer.id)
    ensures var r := Api.Merge(entry, RejectPatch(reviewer, now));
            ("annotations" in r <==> "annotations" in entry) &&
            ("annotations" in entry ==> r["annotations"] == entry["annotations"]) &&
            r["status"] == Str(Rejected) && r["reviewedBy"] == Str(reviewer.id)
  {
  }

  /** The Review button is offered only for entries still pending. */
  predicate ReviewOffered(e: PoolEntry)
  {
    e.status == PendingReview
  }

  /** The Approve button is enabled only once an annotation is typed. */
  predicate ApproveEnabled(annotation: string)
  {
    annotation != ""
  }

  /** An approval patch sent through the enabled button never carries an
      empty annotation. */
  lemma ApprovedAnnotationNonEmpty(reviewer: User, annotation: string, now: string)
    requires ApproveEnabled(annotation)
    ensures var p := ApprovePatch(reviewer, annotation, now);
            p["annotations"].Arr? && |p["annotations"].items| == 1 &&
            p["annotations"].items[0] != Str("")
  {
  }

  /** An entry that has been reviewed, either way, is no longer offered
      for review. */
  lemma ReviewedNotOffered(e: PoolEntry)
    ensures !ReviewOffered(e.(status := Approved))
    ensures !ReviewOffered(e.(status := Rejected))
  {
  }

  // --------------------------------------------------------------- counts

  /** The statistics bar: the total, the pending entries and the approved
      entries. */
  datatype Stats = Stats(total: nat, pending: nat, approved: nat)

  function PoolStats(entries: seq<PoolEntry>): (s: Stats)
    ensures s.total == |entries|
    ensures s.pending <= s.total && s.approved <= s.total
  {
    Stats(|entries|,
          Count(entries, (e: PoolEntry) => e.status == PendingReview),
          Count(entries, (e: PoolEntry) => e.status == Approved))
  }

  /** Pending and approved are exact, disjoint matches, so together they
      never exceed the total. */
  lemma StatsBounded(entries: seq<PoolEntry>)
    ensures PoolStats(entries).pending + PoolStats(entries).approved <= PoolStats(entries).total
  {
    CountDisjoint2(entries, (e: PoolEntry) => e.status == PendingReview, (e: PoolEntry) => e.status == Approved);
  }

  // ----------------------------------------------------------- CSS class

  /** The status badge's class suffix: the lower-cased status with its
      first space (only) turned into '-'. */
  function StatusClass(status: string): (c: string)
    ensures |c| == |status|
    ensures forall i :: 0 <= i < |status| && status[i] != ' ' ==> c[i] == LowerChar(status[i])
    ensures forall i :: 0 <= i < |status| && status[i] == ' ' ==>
              c[i] == (if forall j :: 0 <= j < i ==> status[j] != ' ' then '-' else ' ')
  {
    ReplaceFirst(ToLower(status), ' ', '-')
  }

  /** A status of a space-free first word, a space and a rest gets the
      lower-cased first word, '-', and the lower-cased rest, whose own
      spaces survive: "Pending Review" gives "pending-review", but
      "A b c" gives "a-b c". */
  lemma StatusClassFirstSpace(a: string, b: string)
    requires ' ' !in a
    ensures StatusClass(a + " " + b) == ToLower(a) + "-" + ToLower(b)
  {
    ToLowerConcat(a + " ", b);
    ToLowerConcat(a, " ");
    assert ToLower(" ") == " ";
    assert ' ' !in ToLower(a) by {
      forall i | 0 <= i < |a|
        ensures ToLower(a)[i] != ' '
      {
        assert a[i] != ' ';
      }
    }
    ReplaceFirstAt(ToLower(a), ToLower(b), ' ', '-');
  }

  // ------------------------------------------------------- dialog state

  /** The review dialog: the entry under review (none when closed) and the
      annotation typed so far. */
  datatype Dialog = Dialog(selected: Option<PoolEntry>, annotation: string)

  /** After the approve request: on success the dialog closes and the
      annotation is cleared; on failure nothing changes. */
  function AfterApprove(d: Dialog, ok: bool): (r: Dialog)
    ensures ok ==> r == Dialog(None, "")
    ensures !ok ==> r == d
  {
    if ok then Dialog(None, "") else d
  }

  /** After the reject button: only a confirmed and successful rejection
      closes the dialog, and it keeps the typed annotation. */
  function AfterReject(d: Dialog, confirmed: bool, ok: bool): (r: Dialog)
    ensures r.annotation == d.annotation
    ensures r.selected.None? <==> d.selected.None? || (confirmed && ok)
  {
    if confirmed && ok then d.(selected := None) else d
  }

  /** An annotation typed for one entry and then rejected carries over to
      the next review, where it enables Approve straight away; after an
      approval the next review starts with Approve disabled. */
  lemma AnnotationCarryOver(d: Dialog, next: PoolEntry)
    requires d.annotation != ""
    ensures ApproveEnabled(AfterReject(d, true, true).(selected := Some(next)).annotation)
    ensures !ApproveEnabled(AfterApprove(d, true).(selected := Some(next)).annotation)
  {
  }
}

=== FILE: user_management.dfy ===
/** The user administration page (`UserManagement.js`): the form's create
    and edit modes, the request a submit sends, and the role counts. */
module UserManagement {
  import opened Base
  import opened Json
  import opened Records
  import Api
  import Register

  /** The form's fields. */
  datatype Form = Form(name: string, email: string, password: string, role: string)

  /** The empty form: blank fields and the Technician role. */
  const EmptyForm: Form := Form("", "", "", Technician)

  /** The roles the form's selector offers, in order. */
  const RoleOptions: seq<string> := [Technician, Researcher, Administrator]

  /** The administrator's form offers every role self-registration offers,
      and Administrator besides, which only this form can grant. */
  lemma RoleOptionsFacts()
    ensures forall r :: r in Register.RoleOptions ==> r in RoleOptions
    ensures Administrator in RoleOptions && Administrator !in Register.RoleOptions
    ensures EmptyForm.role in RoleOptions
  {
  }

  /** The page's form state: the user being edited (none when creating),
      the fields, and whether the dialog is open. */
  datatype Editor = Editor(editing: Option<User>, form: Form, open: bool)

  /** The state the page starts in. */
  const Initial: Editor := Editor(None, EmptyForm, false)

  /** `handleEdit`: edit `u`, with its name, email and role filled in and
      the password blank. */
  function HandleEdit(u: User): (e: Editor)
    ensures e.editing == Some(u) && e.open
    ensures e.form.name == u.name && e.form.email == u.email && e.form.role == u.role
    ensures e.form.password == ""
  {
    Editor(Some(u), Form(u.name, u.email, "", u.role), true)
  }

  /** `resetForm` (Cancel): back to creating, with the empty form, and the
      dialog closed. */
  function ResetForm(e: Editor): (r: Editor)
    ensures r == Initial
  {
    Editor(None, EmptyForm, false)
  }

  /** The password field is required only when creating. */
  predicate PasswordRequired(e: Editor)
  {
    e.editing.None?
  }

  /** The submit button's caption. */
  function SubmitCaption(e: Editor): (c: string)
    ensures e.editing.Some? <==> c == "Update User"
    ensures e.editing.None? <==> c == "Create User"
  {
    if e.editing.Some? then "Update User" else "Create User"
  }

  /** A request to the users endpoint: PATCH of one user, or POST of a new
      one. */
  datatype Request = Update(id: Id, body: Obj) | Create(body: Obj)

  /** The form as the JSON body `userAPI` receives: all four fields. */
  function FormBody(f: Form): (b: Obj)
    ensures b.Keys == {"name", "email", "password", "role"}
    ensures b["name"] == Str(f.name) && b["email"] == Str(f.email)
    ensures b["password"] == Str(f.password) && b["role"] == Str(f.role)
  {
    map["name" := Str(f.name), "email" := Str(f.email), "password" := Str(f.password), "role" := Str(f.role)]
  }

  /** The browser's constraint validation, which runs before `onSubmit`:
      name and email are `required`, the email must also pass the
      `type="email"` syntax check (the `emailOk` argument, left abstract),
      and the password is `required` only while creating. A form that
      fails it is never submitted. */
  predicate Submittable(e: Editor, emailOk: bool)
  {
    e.form.name != "" && e.form.email != "" && emailOk &&
    (PasswordRequired(e) ==> e.form.password != "")
  }

  /** `handleSubmit`'s request as the page builds it: nothing when the
      browser blocks the form, otherwise the whole form, as an update of
      the edited user or as a creation. */
  function SubmitRequest(e: Editor, emailOk: bool): (r: Option<Request>)
    ensures r.Some? <==> Submittable(e, emailOk)
    ensures r.Some? ==> (r.value.Update? <==> e.editing.Some?)
    ensures r.Some? && r.value.Update? ==> r.value.id == e.editing.value.id
    ensures r.Some? ==> r.value.body.Keys == {"name", "email", "password", "role"}
    ensures r.Some? ==> r.value.body["password"] == Str(e.form.password)
  {
    if !Submittable(e, emailOk) then None
    else match e.editing
      case Some(u) => Some(Update(u.id, FormBody(e.form)))
      case None => Some(Create(FormBody(e.form)))
  }

  /** Editing never requires a password and offers an update; creating
      does require one. So an edit with the password left blank goes
      through exactly when name and email pass, while a creation with a
      blank password is blocked. */
  lemma EditingRelaxesPassword(u: User, f: Form, emailOk: bool)
    ensures !PasswordRequired(HandleEdit(u))
    ensures SubmitCaption(HandleEdit(u)) == "Update User"
    ensures PasswordRequired(ResetForm(HandleEdit(u)))
    ensures SubmitRequest(HandleEdit(u), emailOk).Some? <==> u.name != "" && u.email != "" && emailOk
    ensures f.password == "" ==> SubmitRequest(Editor(None, f, true), emailOk).None?
  {
  }

  /** The caption names the request a submit sends. */
  lemma CaptionNamesRequest(e: Editor, emailOk: bool)
    requires Submittable(e, emailOk)
    ensures SubmitCaption(e) == "Update User" <==> SubmitRequest(e, emailOk).value.Update?
    ensures SubmitCaption(e) == "Create User" <==> SubmitRequest(e, emailOk).value.Create?
  {
  }

  /** The user as the store holds it: its five fields as strings. */
  function UserObj(u: User): (o: Obj)
    ensures o.Keys == {"id", "name", "email", "password", "role"}
    ensures forall k :: k in o ==> o[k].Str?
  {
    map["id" := Str(u.id), "name" := Str(u.name), "email" := Str(u.email),
        "password" := Str(u.password), "role" := Str(u.role)]
  }

  predicate StrField(o: Obj, k: string)
  {
    k in o && o[k].Str?
  }

  /** Reading a stored object back as a user; other keys are ignored. */
  function DecodeUser(o: Obj): (r: Option<User>)
    ensures r.Some? <==>
              StrField(o, "id") && StrField(o, "name") && StrField(o, "email") &&
              StrField(o, "password") && StrField(o, "role")
    ensures r.Some? ==> UserObj(r.value) == o - (o.Keys - {"id", "name", "email", "password", "role"})
  {
    if StrField(o, "id") && StrField(o, "name") && StrField(o, "email") &&
       StrField(o, "password") && StrField(o, "role")
    then Some(User(o["id"].s, o["name"].s, o["email"].s, o["password"].s, o["role"].s))
    else None
  }

  /** Storing a user and reading it back gives the same user. */
  lemma DecodeUserObj(u: User)
    ensures DecodeUser(UserObj(u)) == Some(u)
  {
  }

  /** Editing a user and submitting without changes sends an update of
      that user with its own name, email and role, and the blank password
      as "". */
  lemma EditRoundTrip(u: User)
    requires u.name != "" && u.email != ""
    ensures SubmitRequest(HandleEdit(u), true) ==
              Some(Update(u.id, map["name" := Str(u.name), "email" := Str(u.email),
                                    "password" := Str(""), "role" := Str(u.role)]))
  {
  }

  /** So updating a user with the password left blank stores the user with
      the password "", after which the old password no longer logs in. */
  lemma BlankPasswordOverwrites(u: User)
    requires u.name != "" && u.email != "" && u.password != ""
    ensures DecodeUser(Api.Merge(UserObj(u), SubmitRequest(HandleEdit(u), true).value.body))
              == Some(u.(password := ""))
    ensures Api.Login([u.(password := "")], u.email, u.password).Err?
  {
    EditRoundTrip(u);
    var stored := Api.Merge(UserObj(u), SubmitRequest(HandleEdit(u), true).value.body);
    assert stored == UserObj(u.(password := ""));
    DecodeUserObj(u.(password := ""));
  }

  /** The body of an update as the "(leave blank to keep current)" label
      promises: the form without its password when the password is
      blank. */
  function UpdateBody(f: Form): (b: Obj)
    ensures f.password == "" ==> b.Keys == {"name", "email", "role"}
    ensures f.password != "" ==> b == FormBody(f)
    ensures forall k :: k in b ==> b[k] == FormBody(f)[k]
  {
    if f.password == "" then FormBody(f) - {"password"} else FormBody(f)
  }

  /** With the corrected body, a blank password keeps the stored one, and
      a typed password replaces it. */
  lemma BlankPasswordKept(stored: Obj, f: Form)
    requires "password" in stored
    ensures f.password == "" ==> Api.Merge(stored, UpdateBody(f))["password"] == stored["password"]
    ensures f.password != "" ==> Api.Merge(stored, UpdateBody(f))["password"] == Str(f.password)
    ensures forall k :: k in {"name", "email", "role"} ==> Api.Merge(stored, UpdateBody(f))[k] == FormBody(f)[k]
  {
  }

  /** `handleSubmit` as the label intends: the same gate and the same
      creation, but an update sends `UpdateBody`. */
  function SubmitRequestIntended(e: Editor, emailOk: bool): (r: Option<Request>)
    ensures r.Some? <==> Submittable(e, emailOk)
    ensures r.Some? ==> (r.value.Update? <==> e.editing.Some?)
    ensures r.Some? && r.value.Update? ==> r.value.id == e.editing.value.id
    ensures r.Some? && r.value.Create? ==> r == SubmitRequest(e, emailOk)
    ensures r.Some? ==> ("password" in r.value.body <==> e.form.password != "" || e.editing.None?)
  {
    if !Submittable(e, emailOk) then None
    else match e.editing
      case Some(u) => Some(Update(u.id, UpdateBody(e.form)))
      case None => Some(Create(FormBody(e.form)))
  }

  /** With the intended request, editing a user and submitting without
      changes stores exactly the user that was there. */
  lemma EditRoundTripIntended(u: User)
    requires u.name != "" && u.email != ""
    ensures DecodeUser(Api.Merge(UserObj(u), SubmitRequestIntended(HandleEdit(u), true).value.body))
              == Some(u)
  {
    var stored := Api.Merge(UserObj(u), SubmitRequestIntended(HandleEdit(u), true).value.body);
    assert stored == UserObj(u);
    DecodeUserObj(u);
  }

  /** After the request: on success the page is back to its initial state;
      on failure nothing changes. */
  function AfterSubmit(e: Editor, ok: bool): (r: Editor)
    ensures ok ==> r == Initial
    ensures !ok ==> r == e
  {
    if ok then ResetForm(e) else e
  }

  // --------------------------------------------------------------- counts

  /** The statistics bar. */
  datatype Stats = Stats(total: nat, administrators: nat, researchers: nat, technicians: nat)

  function HasRole(role: string): User -> bool
  {
    (u: User) => u.role == role
  }

  function UserStats(users: seq<User>): (s: Stats)
    ensures s.total == |users|
    ensures s.administrators <= s.total && s.researchers <= s.total && s.technicians <= s.total
  {
    Stats(|users|, Count(users, HasRole(Administrator)), Count(users, HasRole(Researcher)),
          Count(users, HasRole(Technician)))
  }

  /** The three role counts are exact, disjoint matches, so together they
      never exceed the total. */
  lemma RoleCountsBounded(users: seq<User>)
    ensures UserStats(users).administrators + UserStats(users).researchers + UserStats(users).technicians
              <= UserStats(users).total
  {
    CountDisjoint3(users, HasRole(Administrator), HasRole(Researcher), HasRole(Technician));
  }
}
